=== FILE: README.md ===
# Foodgram core in Dafny

This project models the core of the Foodgram recipe-sharing backend, a
Django REST service.

- **Shopping-list export.** `get_shop_ingredients_or_none` folds every
  ingredient line of every recipe in a user's shopping cart into one dict of
  `name -> {amount, unit}`. `create_pdffile_response` turns that dict into
  numbered text lines for the PDF document, or answers 400.
- **Favorite and follow handlers.**
  - The `favorite` action adds or removes one row of the unique
    (user, recipe) favorites table.
  - The strict `SubscriptionViewSet` and the idempotent `subscribe` action
    add or remove one row of the unique (user, author) follows table.
  - `subscriptions` lists the users a user follows.
  - `user_subscriptions` is the feed of recipes by followed authors, newest
    first, cut to `recipes_limit`.
- **Schema.** The colour, cooking-time and amount validators. The unique
  constraints on tags, ingredients, follows, favorites and cart rows. The
  foreign keys. What `on_delete=CASCADE` removes when a recipe, a user or an
  ingredient is deleted.
- **Filters.** `is_favorited`, `is_in_shopping_cart` and the ingredient
  `name__contains` filter.
- **Permission classes.** Those of the recipe API and of the user endpoints.

How the model is laid out:

- **The database.** The database is a value (`Models.Db`). Tables with a
  primary key are maps from that key. The join tables (recipe lines,
  follows, favorites, cart rows) are sequences of rows in the order the
  database returns them. A unique constraint is the absence of duplicate
  rows, and `Models.Valid` gathers every constraint.
- **Handlers that write.** These take a `Store.Database` object. Its
  methods are the ORM writes (`objects.create`, `get_or_create`,
  `row.delete()`), and each keeps `Valid`.
- **The aggregator.** It is a method whose loops fold the lines in place.
  It is proved equal to a functional reference, and the reference is proved
  to sum every line by name and to keep each name's first unit.

Behaviour of the code that the model keeps as it is:

- **Self-follow.** The `Follow` model has no constraint against following
  oneself. Only the two views refuse it, with 400.
- **Repeated GET `subscribe`.** It is not an error: `get_or_create` makes it
  answer 201 again and change nothing (`UserViews.SubscribeTwice`).
- **Removing a missing favorite or follow.** The answer is 400, not 404.
- **Grouping by unit.** The aggregator keys lines by ingredient name only.
  Two ingredients with the same name and different measurement units are
  summed under the first unit (`Pdf.UnitsNotSeparated`).
- **Tag colours.** They are not unique in the code.

## Model

| member | source | states |
|---|---|---|
| Models.ValidColorIsHashHex | backend/recipes_api/models.py:10-18 | With `max_length=7`, the unanchored search for `#` followed by six hex digits before the end accepts exactly the seven-character `#RRGGBB` strings. |
| Models.DefaultColorValid | backend/recipes_api/models.py:13-16 | The default colour `#49B64E` passes the field's own validator. |
| Models.PatternAloneIsLoose | backend/recipes_api/models.py:15 | The pattern alone also matches text with a prefix, or with a final newline. Only the length limit rejects those. |
| Models.DeleteRecipe | backend/recipes_api/models.py:82-149 | Deleting a recipe removes exactly its ingredient lines, favorites and cart rows. Users, tags, ingredients and follows are unchanged. |
| Models.DeleteRecipeCounts | backend/recipes_api/models.py:82-149 | The recipe cascade removes every copy of a dependent row and keeps every other row of the three tables exactly as many times as it was stored. |
| Models.DeleteRecipePreservesValid | backend/recipes_api/models.py:81-158 | The recipe cascade leaves every foreign key and unique constraint satisfied. |
| Models.DeleteUser | backend/recipes_api/models.py:49-149 | Deleting a user removes their recipes and, through them, those recipes' lines, favorites and cart rows. It also removes every follow row on either side, and the user's own favorites and cart rows. Every other recipe is kept unchanged. |
| Models.DeleteUserCounts | backend/recipes_api/models.py:49-149 | The user cascade removes every copy of a dependent row and keeps every other line, follow, favorite and cart row exactly as many times as it was stored. |
| Models.DeleteUserPreservesValid | backend/recipes_api/models.py:48-158 | The user cascade leaves every constraint of the schema satisfied. |
| Models.DeleteIngredient | backend/recipes_api/models.py:85 | Deleting an ingredient removes exactly the recipe lines that use it. |
| Models.DeleteIngredientCounts | backend/recipes_api/models.py:85 | The ingredient cascade removes every line of that ingredient and keeps every other line exactly as many times as it was stored. |
| Models.DeleteIngredientPreservesValid | backend/recipes_api/models.py:85-93 | The ingredient cascade leaves every constraint satisfied. |
| Store.Database.CreateFavorite | backend/recipes_api/models.py:122-137 | `Favorite.objects.create` succeeds iff the pair is new, and then appends exactly that row. `unique_favorite` rejects a duplicate. The schema invariant is kept. |
| Store.Database.DeleteFavorite | backend/recipes_api/views.py:64 | Deleting a fetched favorite row removes that row only, and the invariant is kept. |
| Store.Database.CreateFollow | backend/recipes_api/models.py:101-116 | `Follow.objects.create` appends the row iff the pair is new (`unique_follow`). The invariant is kept. |
| Store.Database.GetOrCreateFollow | backend/users/views.py:37-39 | Afterwards the follow row exists. It was created iff it was missing, and nothing else changes. |
| Store.Database.DeleteFollow | backend/recipes_api/views.py:103 | Deleting a fetched follow row removes that row only, and the invariant is kept. |
| Store.RowsOf | backend/recipes_api/views.py:111 | A user's related rows (`user.followers`, `user.shopping_carts`) are exactly the stored rows whose first column is that user. |
| Store.TargetsOfUser | backend/recipes_api/views.py:113-116 | The authors collected from a user's follow rows are exactly the authors that user follows. |
| Store.TargetsDistinct | backend/recipes_api/models.py:112-115 | Because follow (or cart) rows are unique, the targets collected for one user are distinct. |
| Store.CartOf | backend/recipes_api/pdf.py:30 | The recipes of the user's cart are exactly those with a cart row for the user. |
| Store.LinesOf | backend/recipes_api/pdf.py:37 | `RecipeIngredient.objects.filter(recipe=...)` yields exactly the stored lines of that recipe. |
| Pdf.MergeKeys | backend/recipes_api/pdf.py:41-54 | Folding the lines yields a proper dict, with each key once. Its keys are exactly the names that occur among the lines. Their order is stated by `Pdf.MergeOrder`. |
| Pdf.MergeValues | backend/recipes_api/pdf.py:41-54 | Each key's amount is the sum of the amounts of every line with that name. Its unit is the unit of the first such line. |
| Pdf.MergeOrder | backend/recipes_api/pdf.py:46-50 | The dict's keys are listed in the order in which their names first occur among the lines. That order numbers the lines of the document. |
| Pdf.MergeCorrect | backend/recipes_api/pdf.py:41-54 | The conjunction of the two: a well-formed dict keyed by the names that occur, with summed amounts and first units. |
| Pdf.MergeSize | backend/recipes_api/pdf.py:46-50 | The dict has one entry per distinct name, not one per line. |
| Pdf.FlourAndSalt | backend/recipes_api/pdf.py:41-54 | Flour 200 g and 300 g and salt 5 g give exactly two entries, flour 500 g and salt 5 g, in that order. |
| Pdf.UnitsNotSeparated | backend/recipes_api/pdf.py:46-54 | Flour 200 g followed by flour 1 kg gives a single entry of 201 g. Lines are keyed by name alone. |
| Pdf.AggregateNeverEmpty | backend/recipes_api/pdf.py:31-39 | Whenever the aggregator returns a dict, that dict is not empty. |
| Pdf.GroupAt | backend/recipes_api/pdf.py:35-39 | The lines visited for the k-th cart recipe are that recipe's stored lines, in order. |
| Pdf.ShopIngredientsCorrect | backend/recipes_api/pdf.py:17-55 | For the evidently intended aggregator (see Findings for the unknown user), the result is None exactly for an unknown user, an empty cart, or a cart holding a recipe without lines. Otherwise it is a non-empty well-formed dict over the lines of the whole cart, with one entry per distinct name, summed amounts and first units, its keys in the order the names first occur. |
| Pdf.ShopIngredientsFrame | backend/recipes_api/pdf.py:17-55 | A user's shopping list depends only on whether the user exists, on the user's cart, on the lines of the recipes in it and on the ingredients those lines name. |
| Pdf.DeleteRecipeKeepsShopList | backend/recipes_api/models.py:82-149 | Deleting a recipe that is not in a user's cart leaves that user's shopping list exactly as it was: entries, sums, units and order. |
| Pdf.DeleteIngredientKeepsShopList | backend/recipes_api/models.py:85 | Deleting an ingredient that no recipe in a user's cart uses leaves that user's shopping list exactly as it was. |
| Pdf.DeleteUserKeepsShopList | backend/recipes_api/models.py:49-149 | Deleting another user, none of whose recipes is in a user's cart, leaves that user's shopping list exactly as it was. |
| Pdf.AddLines | backend/recipes_api/pdf.py:41-54 | The inner loop folds one recipe's lines, in order, into the dict built so far. |
| Pdf.AddRecipe | backend/recipes_api/pdf.py:35-39 | One outer pass reports a recipe without lines, or folds all of that recipe's lines in. |
| Pdf.AddCart | backend/recipes_api/pdf.py:35-55 | The outer loop over a non-empty cart returns None at the first recipe without lines. Otherwise it returns the fold of every line of every recipe. |
| Pdf.GetShopIngredientsOrNone | backend/recipes_api/pdf.py:17-55 | The imperative aggregator, with the user lookup as evidently intended, returns exactly the reference result `ShopIngredients`, whose meaning `ShopIngredientsCorrect` states. |
| Pdf.GetShopIngredientsAsWritten | backend/recipes_api/pdf.py:25-28 | As written, the call raises exactly for an unknown user; for a stored user it returns the reference result. |
| Pdf.WriteLines | backend/recipes_api/pdf.py:77-86 | The loop starting from a header line and a blank line appends `n. name - amount unit` for the n-th key in insertion order, numbered from 1, and nothing else. |
| Pdf.RenderLines | backend/recipes_api/pdf.py:77-86 | The lines are the header, a blank line, then `n. name - amount unit` for the n-th key in insertion order, numbered from 1. |
| Pdf.CreatePdfFileResponse | backend/recipes_api/pdf.py:58-96 | Over the intended aggregator, the answer is never a server error. It is 400 with the fixed message exactly when the aggregator returns None. Otherwise it is `buying_list.pdf`, whose lines list the aggregated dict. |
| Pdf.CreatePdfFileResponseAsWritten | backend/recipes_api/pdf.py:58-69 | As written, the answer is a server error exactly for an unknown user, 400 exactly for a stored user with nothing to list, and otherwise the listing. |
| RecipeViews.Favorite | backend/recipes_api/views.py:42-65 | An unknown recipe gives 404. GET on an existing favorite gives 400, and on a new one gives 201 with exactly that row added. DELETE on a missing favorite gives 400, and on an existing one gives 204 with exactly that row removed. The schema invariant is kept. |
| RecipeViews.FavoriteThenUnfavorite | backend/recipes_api/views.py:48-65 | Adding and then removing a favorite answers 201 and then 204, and leaves the database as it was. |
| RecipeViews.SubscriptionGet | backend/recipes_api/views.py:71-91 | The checks run in order: 404 for an unknown author, 400 for oneself, 400 when already following. Otherwise the answer is 201, with exactly the follow row appended. |
| RecipeViews.SubscriptionDelete | backend/recipes_api/views.py:93-104 | 404 for an unknown author and 400 when there is no such row. Otherwise the answer is 204, with exactly that row removed. There is no self check. |
| RecipeViews.ParseLimit | backend/recipes_api/views.py:118-122 | A missing `recipes_limit` gives no limit. |
| RecipeViews.ParseLimitOfCount | backend/recipes_api/views.py:118-122 | The decimal text of any count parses back to that limit. |
| RecipeViews.SliceBoundOfCount | backend/recipes_api/views.py:118-126 | A `recipes_limit` written as a decimal count is usable, and the slice bound is exactly that count. |
| RecipeViews.NegativeLimitUnusable | backend/recipes_api/views.py:118-126 | A negative `recipes_limit` parses, but it is not a bound the queryset slice accepts. |
| RecipeViews.SliceBoundRejects | backend/recipes_api/views.py:118-126 | For text without `_`: a `recipes_limit` containing a character other than whitespace, a sign or an ASCII digit makes `int()` raise ValueError, and the feed is left uncut. Other texts `int()` refuses, such as `""`, `"-"` or `"5 5"`, are outside this lemma. |
| RecipeViews.SeparatorLimitIgnored | backend/recipes_api/views.py:118-126 | `recipes_limit=%1C5` sets no limit, because `int()` does not skip the information separator U+001C. |
| RecipeViews.UserSubscriptions | backend/recipes_api/views.py:107-134 | There is no body exactly when the user follows no one. Otherwise a negative limit makes the queryset slice raise, exactly then. Otherwise the page holds the recipes by followed authors in strictly decreasing id order, cut to the limit. Its length is the minimum of the limit and the number of such recipes. Every omitted followed recipe is older than every listed one. |
| Rows.TakeNewest | backend/recipes_api/views.py:124-126 | `order_by('-id')[:n]` is strictly descending, holds only queried ids, and keeps the newest ones. |
| Numerals.ParseIntToString | backend/recipes_api/views.py:120 | `int(str(n)) == n` for every integer. Python's default limit of 4300 digits is not modelled (see Left out). |
| Numerals.ParseIntRejects | backend/recipes_api/views.py:119-122 | For ASCII text without `_`: text containing a character other than whitespace, a sign or a digit raises ValueError, so no limit applies. Whitespace here is the C-locale set `int()` skips: space, tab, newline, carriage return, vertical tab and form feed. |
| Numerals.SeparatorNotSkipped | backend/recipes_api/views.py:119-122 | `int()` raises on `"\x1c5"`: the information separators U+001C to U+001F are not skipped, although `str.isspace()` holds for them. |
| UserViews.Subscribe | backend/users/views.py:17-42 | 404 for an unknown author, and 400 for oneself whatever the method. DELETE gives 204 with the row removed, or 400 when there is none. GET gives 201 with the row present, appended iff it was missing. |
| UserViews.SubscribeTwice | backend/users/views.py:37-42 | A second GET `subscribe` answers as the first did. At most one row was added, and it is present. |
| UserViews.Subscriptions | backend/users/views.py:44-55 | There is no body exactly when the user has no follow rows. Otherwise there is one followed user per row, in row order. A user is listed iff followed, and no one is listed twice when rows are unique. |
| Filters.FilterIsFavorited | backend/recipes_api/filters.py:17-23 | Anonymous requests get nothing. `true` gives exactly the stored recipes the user favorited, and `false` gives every recipe. The incoming queryset is ignored. |
| Filters.FilterIsInShoppingCart | backend/recipes_api/filters.py:25-31 | The same rule over the cart rows. |
| Filters.FavoritedAreTheUsersRows | backend/recipes_api/filters.py:17-23 | In a valid database, `is_favorited=true` lists exactly the targets of the user's favorite rows, and never more than `false` does. |
| Filters.InCartIsTheCart | backend/recipes_api/filters.py:25-31 | In a valid database, `is_in_shopping_cart=true` lists exactly the recipes the shopping list is built from, with as many recipes as cart rows. |
| Filters.ContainsIff | backend/recipes_api/filters.py:38-40 | The scanning containment test holds iff the query occurs as a contiguous run in the name. |
| Filters.IngredientNameFilter | backend/recipes_api/filters.py:34-40 | `IngredientFilter` keeps an ingredient iff it is stored and either no `name__contains` was given or its name contains the query, matched case-sensitively. |
| Filters.EmptyNameKeepsAll | backend/recipes_api/filters.py:34-40 | An empty `name__contains` keeps every ingredient, as an absent one does. |
| Permissions.IsAuthorOrAdminOrDenied | backend/recipes_api/permissions.py:4-7 | Allowed iff the requester is the object's author or an admin. |
| Permissions.IsAdminOrReadOnly | backend/recipes_api/permissions.py:10-15 | Safe methods are always allowed. Any other method is allowed iff the requester is an admin. |
| Permissions.IsAuthorOrAdminOrReadOnly | backend/recipes_api/permissions.py:18-27 | Safe methods are always allowed. POST is allowed iff the requester is logged in. Any other method is allowed iff the requester is the author or an admin. |
| Permissions.AnonymousOnlyReads | backend/recipes_api/permissions.py:18-25 | An anonymous requester is allowed the safe methods and refused POST. |
| Permissions.AdminAllowedEverything | backend/recipes_api/permissions.py:4-27 | An admin passes all three classes for every method. |
| Permissions.ReadOnlyVariantIsWidest | backend/recipes_api/permissions.py:4-27 | Whatever either of the other two classes allows, `IsAuthorOrAdminOrReadOnly` allows too. |
| Permissions.StrangerOnlyReadsOrCreates | backend/recipes_api/permissions.py:18-27 | A logged-in non-admin who is not the author may only read or create, and is refused by `IsAuthorOrAdminOrDenied`. |
| UserPermissions.HasPermission | backend/users/permissions.py:6-9 | POST is allowed to anyone. Any other method is allowed iff the requester is logged in. |
| UserPermissions.HasObjectPermission | backend/users/permissions.py:11-14 | PUT, PATCH and DELETE are allowed iff the requester is the user being changed or an admin. Every other method is allowed. |
| UserPermissions.AnonymousOnlyCreates | backend/users/permissions.py:6-9 | An anonymous requester passes the view-level check for POST and nothing else. |
| UserPermissions.WritesNeedOwnerOrAdmin | backend/users/permissions.py:6-14 | A write that passes both checks comes from a logged-in user who is the target or an admin. |

## Left out

- **Document rendering.** The PDF itself is not modelled: fonts, canvas,
  text origin, byte buffer and `FileResponse`. The model stops at the text
  lines handed to the canvas.
- **Serializers and response bodies.** Success answers carry only their
  status. The 404 answer of `get_object_or_404` carries Django's own body,
  which is not modelled.
- **Pagination.** `CustomPagination` is not part of this model.
  `UserSubscriptions` returns the whole sliced list and does not model the
  paginator's `page is None` branch.
- **`IsOwnerOrAdmin`.** `user_subscriptions` names this permission class
  (backend/recipes_api/views.py:12 and 108), but
  backend/recipes_api/permissions.py defines no such class (see "Imports
  the code gets wrong" below). The feed is modelled for an authenticated
  requester.
- **Authentication.** The handlers take the requesting user's primary key.
  The framework's `IsAuthenticated` gate is assumed to have passed.
- RecipeViews.ParseLimit: its own contract only says that a missing
  parameter gives no limit. What it accepts is stated by
  `Numerals.ParseIntToString` and `Numerals.ParseIntRejects`.
- **Limits `int()` accepts beyond ASCII.** `int()` also accepts digit
  grouping with `_`, and non-ASCII decimal digits and whitespace such as
  U+0085 and U+00A0. In text that holds a non-ASCII character, it also
  skips U+001C to U+001F. Those forms are read as no limit here.
- Numerals.ParseIntToString: Python refuses to convert text of more than
  4300 digits by default (`sys.set_int_max_str_digits`). The model has no
  such limit, so for larger limits the code raises ValueError and reads no
  limit, where the model reads the number.
- **When the validators run.** Django runs the colour, cooking-time and
  amount validators in `full_clean` and in the serializers, not on `save()`
  or `objects.create`. `Models.Valid` assumes every stored row came through
  validated input.
- **Field and related names the views get wrong.** The model gives each of
  these the evident meaning of a (user, author) or (user, recipe) row. As
  written:
  - `recipe.favorite_recipes` (backend/recipes_api/views.py:49 and 59)
    raises AttributeError, since the related name is `favorites`;
  - `Follow.objects.filter(follower=..., following=...)`
    (backend/recipes_api/views.py:79-80) and
    `follower.followers.get(following=...)`
    (backend/recipes_api/views.py:98) raise FieldError, since the fields are
    `user` and `author`;
  - `select_related('following')` (backend/recipes_api/views.py:111)
    raises FieldError, and `subscript.following` would raise AttributeError;
  - backend/users/views.py:9 imports `Follow` from `users.models`, which
    does not define it, so that module fails to import. `subscribe` and
    `subscriptions` (backend/users/views.py:28-29, 37-39 and 47-51) never
    run as written.

  These errors are not modelled.
- **Imports the code gets wrong.** backend/recipes_api/views.py:12-16
  imports `IsOwnerOrAdmin` from backend/recipes_api/permissions.py, and
  `CustomUserSerializer`, `CustomUserSubscribeSerializer` and
  `FavoriteAndShoppingRecipeSerializer` from
  backend/recipes_api/serializers.py. Neither file defines them, so that
  module fails to import with ImportError. `favorite`,
  `SubscriptionViewSet` and `user_subscriptions`
  (backend/recipes_api/views.py:42-134) never run as written. The model
  gives them the behaviour their bodies evidently intend, as it does for
  backend/users/views.py.
- **`RecipeFilter` is attached to no view.** `RecipeListViewSet`
  (backend/recipes_api/views.py:33-40) sets only
  `filterset_fields = ['author']`. So `is_favorited` and
  `is_in_shopping_cart` (backend/recipes_api/filters.py:6-31) are not
  reached as written. The model states what `RecipeFilter` does where it
  is attached.
- **Concurrency.** Two concurrent inserts of the same pair are not
  modelled, and each handler runs atomically. The unique constraint is what
  the model keeps.
- **Operations outside the core.**
  - user creation (`create`) and the user manager;
  - the tag and author filters;
  - the list and retrieve views;
  - recipe create and update;
  - admin registration and URL routing.
- **Shopping-cart toggle.** The repository has no cart add or remove
  handler in the files modelled. Cart rows are only read, and removed by the
  cascades.
- **Superseded drafts.** The older drafts of the models
  (`backend/foodgram/api/models.py`, `foodgram_project/foodgram/models.py`)
  are not part of this model.
- **Field lengths and the image field.** Length limits other than the
  colour's are not modelled, and neither is the image field.
- **`MultipleObjectsReturned` in `get_shop_ingredients_or_none`.** This
  branch cannot happen on a primary key lookup, so it is not modelled.
- Pdf.ShopIngredientsCorrect: its "None for an unknown user" clause states
  the evidently intended behaviour. As written that call raises, which
  `Pdf.GetShopIngredientsAsWritten` states (see Findings).
- Filters.IngredientNameFilter: `IngredientViewSet`
  (backend/recipes_api/views.py:26-30) attaches no filter backend or filter
  set, so the ingredient endpoint as written ignores `name__contains`. The
  model states what `IngredientFilter` does where it is attached.
- Filters.IngredientNameFilter: assumes a case-sensitive `contains`, as on
  PostgreSQL. On SQLite, Django's `contains` ignores the case of ASCII
  letters. The database settings are not part of this model.
- **Anonymous requesters in the permission classes.** Reading `is_admin` on
  Django's anonymous user raises AttributeError. So `IsAuthorOrAdminOrDenied`,
  `IsAdminOrReadOnly`, `IsAuthorOrAdminOrReadOnly` and
  `HasObjectPermission` require an authenticated requester wherever they
  reach that attribute. The error those calls raise is not modelled.

## Findings

| source | as written | input that shows it | evidently intended | confidence | as-written member | corrected member |
|---|---|---|---|---|---|---|
| backend/recipes_api/pdf.py:25-28 | The except clause names `models.CustomUser.DoesNotExist`. The `models` in scope is `django.db.models`, which has no `CustomUser`, so evaluating the clause raises AttributeError. The error escapes `create_pdffile_response` as a server error. | any `user_id` with no stored user | return None, as the comment at pdf.py:25 says, so that the caller answers 400 | not executed; high | Pdf.GetShopIngredientsAsWritten | Pdf.ShopIngredientsCorrect |

=== FILE: filters.dfy ===
/** The query-string filters of the recipe and ingredient lists: each one is
    a set of primary keys computed from the database and the request. */
module Filters {
  import opened Wrappers
  import opened Rows
  import opened Http
  import opened Models
  import opened Store

  // ---------------------------------------------------------------------
  // RecipeFilter

  /** `Recipe.objects.filter(<table>__user=user)`: the stored recipes that
      have a row of the (user, recipe) table for the user. */
  function RecipesMarkedBy(db: Db, rows: seq<Pair>, user: int): (r: set<int>)
    ensures forall id :: id in r <==> id in db.recipes && (user, id) in rows
  {
    set id | id in db.recipes && (user, id) in rows
  }

  /** `filter_is_favorited`: nothing for an anonymous user; for `true` the
      user's favorites; for `false` every recipe. The incoming queryset is
      discarded in every case. */
  function FilterIsFavorited(db: Db, requester: Requester, queryset: set<int>, value: bool): (r: set<int>)
    ensures requester.Anonymous? ==> r == {}
    ensures requester.Authenticated? && value ==>
      forall id :: id in r <==> id in db.recipes && (requester.id, id) in db.favorites
    ensures requester.Authenticated? && !value ==> r == db.recipes.Keys
  {
    if requester.Anonymous? then {}
    else if value then RecipesMarkedBy(db, db.favorites, requester.id)
    else db.recipes.Keys
  }

  /** `filter_is_in_shopping_cart`: the same rule over the cart table. */
  function FilterIsInShoppingCart(db: Db, requester: Requester, queryset: set<int>, value: bool): (r: set<int>)
    ensures requester.Anonymous? ==> r == {}
    ensures requester.Authenticated? && value ==>
      forall id :: id in r <==> id in db.recipes && (requester.id, id) in db.shoppingCarts
    ensures requester.Authenticated? && !value ==> r == db.recipes.Keys
  {
    if requester.Anonymous? then {}
    else if value then RecipesMarkedBy(db, db.shoppingCarts, requester.id)
    else db.recipes.Keys
  }

  /** In a valid database `is_favorited=true` lists exactly the targets of
      the user's favorite rows, and it never lists more than `false` does. */
  lemma FavoritedAreTheUsersRows(db: Db, queryset: set<int>, user: int, isAdmin: bool)
    requires Valid(db)
    ensures var marked := FilterIsFavorited(db, Authenticated(user, isAdmin), queryset, true);
      && (forall id :: id in marked <==> id in Targets(RowsOf(db.favorites, user)))
      && marked <= FilterIsFavorited(db, Authenticated(user, isAdmin), queryset, false)
  {
    forall id ensures id in Targets(RowsOf(db.favorites, user)) <==> (user, id) in db.favorites {
      TargetsOfUser(db.favorites, user, id);
    }
  }

  /** In a valid database `is_in_shopping_cart=true` lists exactly the
      recipes of the user's cart, the ones the shopping list is built from. */
  lemma InCartIsTheCart(db: Db, queryset: set<int>, user: int, isAdmin: bool)
    requires Valid(db)
    ensures var marked := FilterIsInShoppingCart(db, Authenticated(user, isAdmin), queryset, true);
      && (forall id :: id in marked <==> id in CartOf(db, user))
      && |marked| == |CartOf(db, user)|
  {
    var marked := FilterIsInShoppingCart(db, Authenticated(user, isAdmin), queryset, true);
    var cart := CartOf(db, user);
    TargetsDistinct(db.shoppingCarts, user);
    NoDupCard(cart);
    assert Elems(cart) == marked;
  }

  // ---------------------------------------------------------------------
  // IngredientFilter: name__contains

  /** `q` occurs in `s` starting at index `i`. */
  predicate OccursAt(s: string, q: string, i: int) {
    0 <= i && i + |q| <= |s| && s[i..i + |q|] == q
  }

  /** `q` occurs in `s` as a contiguous run of characters. */
  ghost predicate Occurs(s: string, q: string) {
    exists i :: OccursAt(s, q, i)
  }

  /** The containment test, scanning `s` from the front. */
  function Contains(s: string, q: string): bool
    decreases |s|
  {
    if |q| > |s| then false
    else if s[..|q|] == q then true
    else Contains(s[1..], q)
  }

  lemma SliceOfTail(s: string, i: int, n: int)
    requires 0 <= i && 0 <= n && i + n < |s|
    ensures s[1..][i..i + n] == s[i + 1..i + 1 + n]
  {
  }

  lemma {:induction false} ContainsIff(s: string, q: string)
    ensures Contains(s, q) <==> Occurs(s, q)
    decreases |s|
  {
    if |q| > |s| {
      assert forall i :: !OccursAt(s, q, i);
    } else if s[..|q|] == q {
      assert OccursAt(s, q, 0);
    } else {
      ContainsIff(s[1..], q);
      if Occurs(s[1..], q) {
        var i :| OccursAt(s[1..], q, i);
        SliceOfTail(s, i, |q|);
        assert OccursAt(s, q, i + 1);
      }
      if Occurs(s, q) {
        var i :| OccursAt(s, q, i);
        assert i != 0;
        SliceOfTail(s, i - 1, |q|);
        assert OccursAt(s[1..], q, i - 1);
      }
    }
  }

  /** What `IngredientFilter` does with its `name__contains` parameter:
      every ingredient when it is absent, otherwise those whose name
      contains it (case-sensitively). */
  function IngredientNameFilter(ingredients: map<int, Ingredient>, query: Option<string>): (r: set<int>)
    ensures forall id :: id in r <==> id in ingredients && (query.None? || Occurs(ingredients[id].name, query.value))
  {
    match query
    case None => ingredients.Keys
    case Some(q) =>
      assert forall id :: id in ingredients ==> (Contains(ingredients[id].name, q) <==> Occurs(ingredients[id].name, q)) by {
        forall id | id in ingredients
          ensures Contains(ingredients[id].name, q) <==> Occurs(ingredients[id].name, q)
        {
          ContainsIff(ingredients[id].name, q);
        }
      }
      set id | id in ingredients && Contains(ingredients[id].name, q)
  }

  /** An empty `name__contains` keeps every ingredient, as an absent one does. */
  lemma EmptyNameKeepsAll(ingredients: map<int, Ingredient>)
    ensures IngredientNameFilter(ingredients, Some("")) == IngredientNameFilter(ingredients, None)
  {
    forall id | id in ingredients ensures Occurs(ingredients[id].name, "") {
      assert OccursAt(ingredients[id].name, "", 0);
    }
  }
}

=== FILE: http.dfy ===
/** The request side the handlers and permission classes look at: who is
    asking, with which HTTP method, and what the handlers answer. */
module Http {
  import opened Wrappers

  /** `request.user`: Django's anonymous user, or a stored user given by its
      primary key and its `is_admin` flag (`is_admin` is `is_superuser`). */
  datatype Requester = Anonymous | Authenticated(id: int, isAdmin: bool)

  /** The two methods the `favorite` and `subscribe` actions are declared for. */
  datatype Verb = Get | Delete

  /** REST framework's SAFE_METHODS. */
  const SafeMethods: set<string> := {"GET", "HEAD", "OPTIONS"}

  const StatusCreated: int := 201
  const StatusNoContent: int := 204
  const StatusBadRequest: int := 400
  const StatusNotFound: int := 404

  /** A handler's answer: its status and, for the error answers the handlers
      write themselves, the message text. Serialized bodies are not modelled. */
  datatype Reply = Reply(status: int, message: Option<string>)

  /** `get_object_or_404` found no row: Django's own 404 answer. */
  const NotFound: Reply := Reply(StatusNotFound, None)

  const SelfSubscribeText: string := "You can not subscribe yourself."
  const NoSubscriptionText: string := "No subscription on given user found."
}

=== FILE: models.dfy ===
/** The recipe schema: the entities, their field validators, the unique and
    foreign-key constraints, and what `on_delete=CASCADE` removes when a row
    is deleted. `Valid` gathers the constraints the database enforces
    together with the field validators. Django runs the validators only in
    `full_clean` and in the serializers, not on `save()` or
    `objects.create`, so `Valid` describes a database whose rows all came
    through validated input. */
module Models {
  import opened Rows

  /** A stored user; only `is_admin` (which is `is_superuser`) matters here. */
  datatype User = User(isAdmin: bool)

  datatype Tag = Tag(name: string, slug: string, color: string)

  datatype Ingredient = Ingredient(name: string, measurementUnit: string)

  /** A recipe; `tags` are the primary keys of its tags (the many-to-many
      relation). The image is a stored file reference and is not modelled. */
  datatype Recipe = Recipe(author: int, name: string, text: string, cookingTime: int, tags: set<int>)

  /** One ingredient line of a recipe. */
  datatype RecipeIngredient = RecipeIngredient(recipe: int, ingredient: int, amount: int)

  /** A Follow row is (user, author); Favorite and ShoppingCart rows are (user, recipe). */
  type Pair = (int, int)

  /** The whole database. Entities with a primary key are maps from it; the
      join tables are sequences of rows in the order the database returns them. */
  datatype Db = Db(
    users: map<int, User>,
    tags: map<int, Tag>,
    ingredients: map<int, Ingredient>,
    recipes: map<int, Recipe>,
    recipeIngredients: seq<RecipeIngredient>,
    follows: seq<Pair>,
    favorites: seq<Pair>,
    shoppingCarts: seq<Pair>)

  // ---------------------------------------------------------------------
  // Tag colour: RegexValidator(r'#[a-fA-F0-9]{6}$') with max_length=7

  const ColorMaxLength: nat := 7
  const DefaultColor: string := "#49B64E"

  predicate IsHexDigit(c: char) {
    '0' <= c <= '9' || 'a' <= c <= 'f' || 'A' <= c <= 'F'
  }

  /** `#` followed by six hex digits, starting at index `i`. */
  predicate HexColorAt(s: string, i: int)
    requires 0 <= i && i + 7 <= |s|
  {
    s[i] == '#' && forall k :: i < k < i + 7 ==> IsHexDigit(s[k])
  }

  /** Where Python's `$` matches: at the end, or just before a final newline. */
  predicate EndAnchorAt(s: string, p: int) {
    p == |s| || (p == |s| - 1 && 0 <= p && s[p] == '\n')
  }

  /** What RegexValidator checks: `re.search` finds the pattern anywhere. */
  predicate ColorPatternFound(s: string) {
    exists i :: 0 <= i && i + 7 <= |s| && HexColorAt(s, i) && EndAnchorAt(s, i + 7)
  }

  /** The colour field accepts a value: it fits max_length and passes the validator. */
  predicate ValidColor(s: string) {
    |s| <= ColorMaxLength && ColorPatternFound(s)
  }

  /** Exactly the `#RRGGBB` form. */
  predicate IsHashHex(s: string) {
    |s| == 7 && s[0] == '#' && forall k :: 1 <= k < 7 ==> IsHexDigit(s[k])
  }

  /** Under the 7-character limit the validator accepts exactly `#RRGGBB`. */
  lemma ValidColorIsHashHex(s: string)
    ensures ValidColor(s) <==> IsHashHex(s)
  {
    if IsHashHex(s) {
      assert HexColorAt(s, 0) && EndAnchorAt(s, 7);
    }
    if ValidColor(s) {
      var i :| 0 <= i && i + 7 <= |s| && HexColorAt(s, i) && EndAnchorAt(s, i + 7);
      assert i == 0;
    }
  }

  /** The field's default colour passes its own validator. */
  lemma DefaultColorValid()
    ensures ValidColor(DefaultColor)
  {
    assert HexColorAt(DefaultColor, 0) && EndAnchorAt(DefaultColor, 7);
  }

  /** The pattern alone is not anchored at the start (nor before a final
      newline); only the length limit makes the field strict. */
  lemma PatternAloneIsLoose()
    ensures ColorPatternFound("x#49B64E") && !ValidColor("x#49B64E")
    ensures ColorPatternFound("#49B64E\n") && !ValidColor("#49B64E\n")
  {
    assert HexColorAt("x#49B64E", 1) && EndAnchorAt("x#49B64E", 8);
    assert HexColorAt("#49B64E\n", 0) && EndAnchorAt("#49B64E\n", 7);
  }

  // ---------------------------------------------------------------------
  // Field validators: MinValueValidator(1)

  const MinCookingTime: int := 1
  const MinAmount: int := 1

  predicate ValidCookingTime(minutes: int) {
    minutes >= MinCookingTime
  }

  predicate ValidAmount(amount: int) {
    amount >= MinAmount
  }

  // ---------------------------------------------------------------------
  // Constraints the database keeps

  /** Tag `name` and `slug` are each unique; every colour is valid. */
  ghost predicate TagsValid(tags: map<int, Tag>) {
    && (forall t :: t in tags ==> ValidColor(tags[t].color))
    && (forall a, b :: a in tags && b in tags && a != b ==>
          tags[a].name != tags[b].name && tags[a].slug != tags[b].slug)
  }

  /** The `unique_ingredient` constraint on (name, measurement_unit). */
  ghost predicate IngredientsUnique(ingredients: map<int, Ingredient>) {
    forall a, b :: a in ingredients && b in ingredients && a != b ==> ingredients[a] != ingredients[b]
  }

  /** Every recipe has a stored author, existing tags and a valid cooking time. */
  ghost predicate RecipesValid(db: Db) {
    forall r :: r in db.recipes ==>
      && db.recipes[r].author in db.users
      && db.recipes[r].tags <= db.tags.Keys
      && ValidCookingTime(db.recipes[r].cookingTime)
  }

  /** Every ingredient line points at a stored recipe and ingredient, with a valid amount. */
  ghost predicate LinesValid(db: Db) {
    forall l :: l in db.recipeIngredients ==>
      l.recipe in db.recipes && l.ingredient in db.ingredients && ValidAmount(l.amount)
  }

  /** `unique_follow` and both foreign keys. Following oneself is not excluded here. */
  ghost predicate FollowsValid(db: Db) {
    && NoDup(db.follows)
    && forall p :: p in db.follows ==> p.0 in db.users && p.1 in db.users
  }

  /** `unique_favorite` / `unique_shop` and both foreign keys of a (user, recipe) table. */
  ghost predicate MembershipValid(rows: seq<Pair>, db: Db) {
    && NoDup(rows)
    && forall p :: p in rows ==> p.0 in db.users && p.1 in db.recipes
  }

  /** Everything the schema guarantees about a stored database. */
  ghost predicate Valid(db: Db) {
    && TagsValid(db.tags)
    && IngredientsUnique(db.ingredients)
    && RecipesValid(db)
    && LinesValid(db)
    && FollowsValid(db)
    && MembershipValid(db.favorites, db)
    && MembershipValid(db.shoppingCarts, db)
  }

  // ---------------------------------------------------------------------
  // on_delete=CASCADE

  /** Deleting a recipe deletes its ingredient lines, favorites and cart rows. */
  function DeleteRecipe(db: Db, id: int): (r: Db)
    ensures r.recipes == db.recipes - {id}
    ensures r.users == db.users && r.tags == db.tags && r.ingredients == db.ingredients
    ensures r.follows == db.follows
    ensures forall l :: l in r.recipeIngredients <==> l in db.recipeIngredients && l.recipe != id
    ensures forall p :: p in r.favorites <==> p in db.favorites && p.1 != id
    ensures forall p :: p in r.shoppingCarts <==> p in db.shoppingCarts && p.1 != id
  {
    db.(recipes := db.recipes - {id},
        recipeIngredients := Where(db.recipeIngredients, (l: RecipeIngredient) => l.recipe != id),
        favorites := Where(db.favorites, (p: Pair) => p.1 != id),
        shoppingCarts := Where(db.shoppingCarts, (p: Pair) => p.1 != id))
  }

  /** The cascade deletes every copy of a dependent row and keeps every
      other row as many times as it was stored. */
  lemma DeleteRecipeCounts(db: Db, id: int)
    ensures forall l :: multiset(DeleteRecipe(db, id).recipeIngredients)[l] ==
              (if l.recipe == id then 0 else multiset(db.recipeIngredients)[l])
    ensures forall p :: multiset(DeleteRecipe(db, id).favorites)[p] ==
              (if p.1 == id then 0 else multiset(db.favorites)[p])
    ensures forall p :: multiset(DeleteRecipe(db, id).shoppingCarts)[p] ==
              (if p.1 == id then 0 else multiset(db.shoppingCarts)[p])
  {
    var r := DeleteRecipe(db, id);
    forall l ensures multiset(r.recipeIngredients)[l] ==
              (if l.recipe == id then 0 else multiset(db.recipeIngredients)[l]) {
      WhereCount(db.recipeIngredients, (l: RecipeIngredient) => l.recipe != id, l);
    }
    forall p ensures multiset(r.favorites)[p] == (if p.1 == id then 0 else multiset(db.favorites)[p]) {
      WhereCount(db.favorites, (p: Pair) => p.1 != id, p);
    }
    forall p ensures multiset(r.shoppingCarts)[p] == (if p.1 == id then 0 else multiset(db.shoppingCarts)[p]) {
      WhereCount(db.shoppingCarts, (p: Pair) => p.1 != id, p);
    }
  }

  lemma DeleteRecipePreservesValid(db: Db, id: int)
    requires Valid(db)
    ensures Valid(DeleteRecipe(db, id))
  {
    WhereNoDup(db.favorites, (p: Pair) => p.1 != id);
    WhereNoDup(db.shoppingCarts, (p: Pair) => p.1 != id);
  }

  /** The recipes a user authored. */
  function AuthoredBy(db: Db, user: int): (r: set<int>)
    ensures forall id :: id in r <==> id in db.recipes && db.recipes[id].author == user
  {
    set id | id in db.recipes && db.recipes[id].author == user
  }

  /** Deleting a user deletes their recipes (and, through them, those
      recipes' lines, favorites and cart rows), their follow rows on either
      side, and their own favorites and cart rows. */
  function DeleteUser(db: Db, user: int): (r: Db)
    ensures r.users == db.users - {user}
    ensures r.tags == db.tags && r.ingredients == db.ingredients
    ensures forall id :: id in r.recipes <==> id in db.recipes && db.recipes[id].author != user
    ensures forall id :: id in r.recipes ==> r.recipes[id] == db.recipes[id]
    ensures forall l :: l in r.recipeIngredients <==>
      l in db.recipeIngredients && l.recipe !in AuthoredBy(db, user)
    ensures forall p :: p in r.follows <==> p in db.follows && p.0 != user && p.1 != user
    ensures forall p :: p in r.favorites <==>
      p in db.favorites && p.0 != user && p.1 !in AuthoredBy(db, user)
    ensures forall p :: p in r.shoppingCarts <==>
      p in db.shoppingCarts && p.0 != user && p.1 !in AuthoredBy(db, user)
  {
    var gone := AuthoredBy(db, user);
    db.(users := db.users - {user},
        recipes := db.recipes - gone,
        recipeIngredients := Where(db.recipeIngredients, (l: RecipeIngredient) => l.recipe !in gone),
        follows := Where(db.follows, (p: Pair) => p.0 != user && p.1 != user),
        favorites := Where(db.favorites, (p: Pair) => p.0 != user && p.1 !in gone),
        shoppingCarts := Where(db.shoppingCarts, (p: Pair) => p.0 != user && p.1 !in gone))
  }

  /** The user cascade deletes every copy of a dependent row and keeps every
      other row as many times as it was stored. */
  lemma DeleteUserCounts(db: Db, user: int)
    ensures forall l :: multiset(DeleteUser(db, user).recipeIngredients)[l] ==
              (if l.recipe in AuthoredBy(db, user) then 0 else multiset(db.recipeIngredients)[l])
    ensures forall p :: multiset(DeleteUser(db, user).follows)[p] ==
              (if p.0 == user || p.1 == user then 0 else multiset(db.follows)[p])
    ensures forall p :: multiset(DeleteUser(db, user).favorites)[p] ==
              (if p.0 == user || p.1 in AuthoredBy(db, user) then 0 else multiset(db.favorites)[p])
    ensures forall p :: multiset(DeleteUser(db, user).shoppingCarts)[p] ==
              (if p.0 == user || p.1 in AuthoredBy(db, user) then 0 else multiset(db.shoppingCarts)[p])
  {
    var gone := AuthoredBy(db, user);
    var r := DeleteUser(db, user);
    forall l ensures multiset(r.recipeIngredients)[l] ==
              (if l.recipe in gone then 0 else multiset(db.recipeIngredients)[l]) {
      WhereCount(db.recipeIngredients, (l: RecipeIngredient) => l.recipe !in gone, l);
    }
    forall p ensures multiset(r.follows)[p] ==
              (if p.0 == user || p.1 == user then 0 else multiset(db.follows)[p]) {
      WhereCount(db.follows, (p: Pair) => p.0 != user && p.1 != user, p);
    }
    forall p ensures multiset(r.favorites)[p] ==
              (if p.0 == user || p.1 in gone then 0 else multiset(db.favorites)[p]) {
      WhereCount(db.favorites, (p: Pair) => p.0 != user && p.1 !in gone, p);
    }
    forall p ensures multiset(r.shoppingCarts)[p] ==
              (if p.0 == user || p.1 in gone then 0 else multiset(db.shoppingCarts)[p]) {
      WhereCount(db.shoppingCarts, (p: Pair) => p.0 != user && p.1 !in gone, p);
    }
  }

  lemma DeleteUserPreservesValid(db: Db, user: int)
    requires Valid(db)
    ensures Valid(DeleteUser(db, user))
  {
    var gone := AuthoredBy(db, user);
    WhereNoDup(db.follows, (p: Pair) => p.0 != user && p.1 != user);
    WhereNoDup(db.favorites, (p: Pair) => p.0 != user && p.1 !in gone);
    WhereNoDup(db.shoppingCarts, (p: Pair) => p.0 != user && p.1 !in gone);
  }

  /** Deleting an ingredient deletes the recipe lines that use it. */
  function DeleteIngredient(db: Db, id: int): (r: Db)
    ensures r.ingredients == db.ingredients - {id}
    ensures r.users == db.users && r.tags == db.tags && r.recipes == db.recipes
    ensures r.follows == db.follows && r.favorites == db.favorites && r.shoppingCarts == db.shoppingCarts
    ensures forall l :: l in r.recipeIngredients <==> l in db.recipeIngredients && l.ingredient != id
  {
    db.(ingredients := db.ingredients - {id},
        recipeIngredients := Where(db.recipeIngredients, (l: RecipeIngredient) => l.ingredient != id))
  }

  /** Every line of another ingredient survives as many times as it was stored. */
  lemma DeleteIngredientCounts(db: Db, id: int)
    ensures forall l :: multiset(DeleteIngredient(db, id).recipeIngredients)[l] ==
              (if l.ingredient == id then 0 else multiset(db.recipeIngredients)[l])
  {
    var r := DeleteIngredient(db, id);
    forall l ensures multiset(r.recipeIngredients)[l] ==
              (if l.ingredient == id then 0 else multiset(db.recipeIngredients)[l]) {
      WhereCount(db.recipeIngredients, (l: RecipeIngredient) => l.ingredient != id, l);
    }
  }

  lemma DeleteIngredientPreservesValid(db: Db, id: int)
    requires Valid(db)
    ensures Valid(DeleteIngredient(db, id))
  {
  }
}

=== FILE: numerals.dfy ===
/** Decimal text of integers: what Python's `str(n)` (inside an f-string)
    produces and what `int(s)` reads back, for plain ASCII digit strings. */
module Numerals {
  import opened Wrappers

  predicate IsDigit(c: char) {
    '0' <= c <= '9'
  }

  predicate AllDigits(s: string) {
    forall k :: 0 <= k < |s| ==> IsDigit(s[k])
  }

  function DigitChar(d: nat): (c: char)
    requires d < 10
    ensures IsDigit(c)
  {
    ['0', '1', '2', '3', '4', '5', '6', '7', '8', '9'][d]
  }

  function DigitValue(c: char): (d: nat)
    requires IsDigit(c)
    ensures d < 10
  {
    (c as int - '0' as int) as nat
  }

  /** The shortest decimal text of `n`: no leading zero except for 0 itself. */
  function NatToString(n: nat): (s: string)
    ensures |s| >= 1 && AllDigits(s)
    ensures |s| > 1 ==> s[0] != '0'
  {
    if n < 10 then [DigitChar(n)]
    else NatToString(n / 10) + [DigitChar(n % 10)]
  }

  /** Python's `str(n)` for an int: a minus sign before negative values. */
  function IntToString(n: int): (s: string)
    ensures n >= 0 ==> s == NatToString(n)
    ensures n < 0 ==> s == "-" + NatToString(-n)
  {
    if n < 0 then "-" + NatToString(-n) else NatToString(n)
  }

  /** The value of a string of decimal digits, most significant first. */
  function ParseDigits(s: string): (n: nat)
    requires AllDigits(s)
  {
    if s == [] then 0
    else ParseDigits(s[..|s| - 1]) * 10 + DigitValue(s[|s| - 1])
  }

  lemma DigitRoundTrip(d: nat)
    requires d < 10
    ensures DigitValue(DigitChar(d)) == d
  {
  }

  /** Reading back the decimal text of `n` gives `n`. */
  lemma {:induction false} ParseNatToString(n: nat)
    ensures ParseDigits(NatToString(n)) == n
  {
    var s := NatToString(n);
    if n < 10 {
      DigitRoundTrip(n);
      assert s[..0] == [];
    } else {
      ParseNatToString(n / 10);
      DigitRoundTrip(n % 10);
      assert s[..|s| - 1] == NatToString(n / 10);
    }
  }

  // ---------------------------------------------------------------------
  // Python's int() on text

  /** The characters `int()` ignores around ASCII text: the C-locale
      whitespace (space, tab, newline, carriage return, vertical tab, form
      feed). The information separators U+001C to U+001F are not among them,
      although `str.isspace()` holds for them. */
  predicate IsSpace(c: char) {
    c == ' ' || c == '\t' || c == '\n' || c == '\r' || c == '\U{000B}' || c == '\U{000C}'
  }

  /** `s` without its leading whitespace. */
  function StripStart(s: string): (r: string)
    ensures |r| <= |s| && r == s[|s| - |r|..]
    ensures r == [] || !IsSpace(r[0])
    ensures forall k :: 0 <= k < |s| - |r| ==> IsSpace(s[k])
  {
    if s != [] && IsSpace(s[0]) then StripStart(s[1..]) else s
  }

  /** `s` without its trailing whitespace. */
  function StripEnd(s: string): (r: string)
    ensures |r| <= |s| && r == s[..|r|]
    ensures r == [] || !IsSpace(r[|r| - 1])
    ensures forall k :: |r| <= k < |s| ==> IsSpace(s[k])
  {
    if s != [] && IsSpace(s[|s| - 1]) then StripEnd(s[..|s| - 1]) else s
  }

  /** `int(s)` on base-10 ASCII text: optional surrounding whitespace, an
      optional sign, then at least one digit; None where it raises ValueError. */
  function ParseInt(s: string): Option<int> {
    var t := StripEnd(StripStart(s));
    if t == [] then None
    else if t[0] == '-' || t[0] == '+' then
      var digits := t[1..];
      if digits != [] && AllDigits(digits) then
        var value: int := ParseDigits(digits);
        Some(if t[0] == '-' then -value else value)
      else None
    else if AllDigits(t) then Some(ParseDigits(t))
    else None
  }

  /** `int(str(n)) == n`. */
  lemma ParseIntToString(n: int)
    ensures ParseInt(IntToString(n)) == Some(n)
  {
    var m: nat := if n < 0 then -n else n;
    ParseNatToString(m);
    if n < 0 {
      ParseIntSigned(NatToString(m));
    } else {
      ParseIntUnsigned(NatToString(m));
    }
  }

  /** Digits with nothing around them read as their value. */
  lemma ParseIntUnsigned(digits: string)
    requires digits != [] && AllDigits(digits)
    ensures ParseInt(digits) == Some(ParseDigits(digits))
  {
    StripNothing(digits);
  }

  /** A minus sign before digits reads as the negated value. */
  lemma ParseIntSigned(digits: string)
    requires digits != [] && AllDigits(digits)
    ensures ParseInt("-" + digits) == Some(-(ParseDigits(digits) as int))
  {
    var s := "-" + digits;
    assert s[1..] == digits;
    assert s[|s| - 1] == digits[|digits| - 1];
    StripNothing(s);
  }

  /** Text with no whitespace at either end is left as it is by stripping. */
  lemma StripNothing(s: string)
    requires s != [] && !IsSpace(s[0]) && !IsSpace(s[|s| - 1])
    ensures StripEnd(StripStart(s)) == s
  {
  }

  /** Text with a character other than whitespace, a sign or a digit is not an integer. */
  lemma ParseIntRejects(s: string, k: int)
    requires 0 <= k < |s| && !IsSpace(s[k]) && !IsDigit(s[k]) && s[k] != '-' && s[k] != '+'
    ensures ParseInt(s) == None
  {
    var a := StripStart(s);
    var t := StripEnd(a);
    var off := |s| - |a|;
    assert k >= off;
    assert a[k - off] == s[k];
    assert k - off < |t|;
    assert t[k - off] == s[k];
    if t != [] && (t[0] == '-' || t[0] == '+') && |t| > 1 {
      assert k - off != 0;
      assert t[1..][k - off - 1] == s[k];
    }
  }

  /** An information separator in front of the digits makes `int()` raise. */
  lemma SeparatorNotSkipped()
    ensures ParseInt("\U{001C}5") == None
  {
    ParseIntRejects("\U{001C}5", 0);
  }
}

=== FILE: pdf.dfy ===
/** The shopping-list export: the aggregation of a user's cart into one
    insertion-ordered dict of name -> {amount, unit}, and the numbered text
    lines that are handed to the document renderer. */
module Pdf {
  import opened Wrappers
  import opened Rows
  import opened Numerals
  import opened Models
  import opened Store

  /** One ingredient line as the aggregator reads it. */
  datatype Purchase = Purchase(name: string, unit: string, amount: int)

  /** The value stored under a name: `{'amount': ..., 'unit': ...}`. */
  datatype Entry = Entry(amount: int, unit: string)

  /** The `shop_ingredients` dict: its keys in insertion order and its values. */
  datatype ShopList = ShopList(names: seq<string>, entries: map<string, Entry>)

  const EmptyList: ShopList := ShopList([], map[])

  /** The key order lists exactly the stored keys. */
  ghost predicate KeysListed(b: ShopList) {
    forall n :: n in b.names <==> n in b.entries
  }

  /** What a Python dict is: every key once. The order of `names` is the
      insertion order; `MergeOrder` states what that order is for the
      aggregate. */
  ghost predicate WellFormed(b: ShopList) {
    NoDup(b.names) && KeysListed(b)
  }

  // ---------------------------------------------------------------------
  // Reference definitions of what the aggregate should hold

  /** Some line of `ps` is named `n`. */
  ghost predicate Mentions(ps: seq<Purchase>, n: string) {
    exists k :: 0 <= k < |ps| && ps[k].name == n
  }

  /** The distinct names of `ps`. */
  ghost function NameSet(ps: seq<Purchase>): set<string> {
    set k | 0 <= k < |ps| :: ps[k].name
  }

  /** The sum of the amounts of every line named `n`. */
  function TotalOf(ps: seq<Purchase>, n: string): int {
    if ps == [] then 0
    else (if ps[0].name == n then ps[0].amount else 0) + TotalOf(ps[1..], n)
  }

  /** The unit of the first line named `n`. */
  function FirstUnit(ps: seq<Purchase>, n: string): string
    requires Mentions(ps, n)
  {
    if ps[0].name == n then ps[0].unit
    else
      assert Mentions(ps[1..], n) by {
        var k :| 0 <= k < |ps| && ps[k].name == n;
        assert ps[1..][k - 1] == ps[k];
      }
      FirstUnit(ps[1..], n)
  }

  /** The position of the first line named `n`. */
  function FirstIndex(ps: seq<Purchase>, n: string): (k: nat)
    requires Mentions(ps, n)
    ensures k < |ps| && ps[k].name == n
    ensures forall j :: 0 <= j < k ==> ps[j].name != n
  {
    if ps[0].name == n then 0
    else
      assert Mentions(ps[1..], n) by {
        var k :| 0 <= k < |ps| && ps[k].name == n;
        assert ps[1..][k - 1] == ps[k];
      }
      1 + FirstIndex(ps[1..], n)
  }

  // ---------------------------------------------------------------------
  // The fold the nested loops perform

  /** One pass of the inner loop body: a new name is inserted with the line's
      amount and unit; a known name only has its amount increased. */
  function Add(b: ShopList, p: Purchase): ShopList {
    if p.name !in b.entries then
      ShopList(b.names + [p.name], b.entries[p.name := Entry(p.amount, p.unit)])
    else
      ShopList(b.names, b.entries[p.name := b.entries[p.name].(amount := b.entries[p.name].amount + p.amount)])
  }

  /** The dict after folding the lines `ps` in order into an empty dict. */
  function Merge(ps: seq<Purchase>): ShopList {
    if ps == [] then EmptyList
    else Add(Merge(ps[..|ps| - 1]), ps[|ps| - 1])
  }

  lemma {:induction false} TotalOfAppend(ps: seq<Purchase>, p: Purchase, n: string)
    ensures TotalOf(ps + [p], n) == TotalOf(ps, n) + (if p.name == n then p.amount else 0)
  {
    if ps == [] {
      assert TotalOf([p], n) == (if p.name == n then p.amount else 0) + TotalOf([], n);
    } else {
      assert (ps + [p])[1..] == ps[1..] + [p];
      TotalOfAppend(ps[1..], p, n);
    }
  }

  lemma {:induction false} TotalOfAbsent(ps: seq<Purchase>, n: string)
    requires !Mentions(ps, n)
    ensures TotalOf(ps, n) == 0
  {
    if ps != [] {
      assert ps[0].name != n;
      assert !Mentions(ps[1..], n) by {
        forall k | 0 <= k < |ps[1..]| ensures ps[1..][k].name != n {
          assert ps[1..][k] == ps[k + 1];
        }
      }
      TotalOfAbsent(ps[1..], n);
    }
  }

  lemma {:induction false} FirstUnitAppend(ps: seq<Purchase>, p: Purchase, n: string)
    requires Mentions(ps, n)
    ensures Mentions(ps + [p], n) && FirstUnit(ps + [p], n) == FirstUnit(ps, n)
  {
    var k :| 0 <= k < |ps| && ps[k].name == n;
    assert (ps + [p])[k] == ps[k];
    if ps[0].name != n {
      assert (ps + [p])[1..] == ps[1..] + [p];
      assert ps[1..][k - 1] == ps[k];
      FirstUnitAppend(ps[1..], p, n);
    }
  }

  lemma {:induction false} FirstUnitOfNewName(ps: seq<Purchase>, p: Purchase)
    requires !Mentions(ps, p.name)
    ensures Mentions(ps + [p], p.name) && FirstUnit(ps + [p], p.name) == p.unit
  {
    assert (ps + [p])[|ps|] == p;
    if ps != [] {
      assert ps[0].name != p.name;
      assert (ps + [p])[1..] == ps[1..] + [p];
      assert !Mentions(ps[1..], p.name) by {
        forall k | 0 <= k < |ps[1..]| ensures ps[1..][k].name != p.name {
          assert ps[1..][k] == ps[k + 1];
        }
      }
      FirstUnitOfNewName(ps[1..], p);
    }
  }

  lemma MentionsAppend(ps: seq<Purchase>, p: Purchase, n: string)
    ensures Mentions(ps + [p], n) <==> Mentions(ps, n) || p.name == n
  {
    if Mentions(ps + [p], n) {
      var k :| 0 <= k < |ps + [p]| && (ps + [p])[k].name == n;
      if k < |ps| { assert ps[k] == (ps + [p])[k]; }
    }
    if Mentions(ps, n) {
      var k :| 0 <= k < |ps| && ps[k].name == n;
      assert (ps + [p])[k] == ps[k];
    }
    assert (ps + [p])[|ps|] == p;
  }

  /** The aggregate is a proper dict whose keys are exactly the names that occur. */
  lemma {:induction false} MergeKeys(ps: seq<Purchase>)
    ensures WellFormed(Merge(ps))
    ensures forall n :: n in Merge(ps).entries <==> Mentions(ps, n)
  {
    if ps != [] {
      var init, p := ps[..|ps| - 1], ps[|ps| - 1];
      assert ps == init + [p];
      MergeKeys(init);
      var b := Merge(init);
      if p.name !in b.entries {
        NoDupAppend(b.names, p.name);
      }
      forall n ensures n in Merge(ps).entries <==> Mentions(ps, n) {
        MentionsAppend(init, p, n);
      }
    }
  }

  /** A line appended after the first line named `n` does not move it. */
  lemma FirstIndexAppend(ps: seq<Purchase>, p: Purchase, n: string)
    requires Mentions(ps, n)
    ensures Mentions(ps + [p], n) && FirstIndex(ps + [p], n) == FirstIndex(ps, n)
  {
    var k := FirstIndex(ps, n);
    assert (ps + [p])[k] == ps[k];
  }

  /** `names` are names of lines of `ps`, listed in the order in which
      they first occur in `ps`. */
  ghost predicate InFirstOrder(ps: seq<Purchase>, names: seq<string>) {
    && (forall n :: n in names ==> Mentions(ps, n))
    && forall i, j :: 0 <= i < j < |names| ==> FirstIndex(ps, names[i]) < FirstIndex(ps, names[j])
  }

  /** A line with a name already listed keeps the order. */
  lemma OrderKeptByOldName(ps: seq<Purchase>, p: Purchase, names: seq<string>)
    requires InFirstOrder(ps, names)
    ensures InFirstOrder(ps + [p], names)
  {
    forall n | n in names ensures Mentions(ps + [p], n) && FirstIndex(ps + [p], n) == FirstIndex(ps, n) {
      FirstIndexAppend(ps, p, n);
    }
  }

  /** A line with a new name extends the order by that name. */
  lemma OrderExtendedByNewName(ps: seq<Purchase>, p: Purchase, names: seq<string>)
    requires InFirstOrder(ps, names) && !Mentions(ps, p.name)
    ensures InFirstOrder(ps + [p], names + [p.name])
  {
    OrderKeptByOldName(ps, p, names);
    MentionsAppend(ps, p, p.name);
    assert FirstIndex(ps + [p], p.name) == |ps|;
    var all := names + [p.name];
    forall i, j | 0 <= i < j < |all| ensures FirstIndex(ps + [p], all[i]) < FirstIndex(ps + [p], all[j]) {
      if j < |names| {
        assert all[i] == names[i] && all[j] == names[j];
      } else {
        assert all[i] == names[i];
        FirstIndexAppend(ps, p, names[i]);
      }
    }
  }

  /** The keys of the aggregate are listed in the order in which their
      names first occur among the lines. */
  lemma {:induction false} MergeOrder(ps: seq<Purchase>)
    ensures InFirstOrder(ps, Merge(ps).names)
  {
    if ps != [] {
      var init, p := ps[..|ps| - 1], ps[|ps| - 1];
      assert ps == init + [p];
      MergeKeys(init);
      MergeOrder(init);
      if p.name in Merge(init).entries {
        OrderKeptByOldName(init, p, Merge(init).names);
      } else {
        OrderExtendedByNewName(init, p, Merge(init).names);
      }
    }
  }

  /** Each amount is the sum over all lines with that name, and each unit is
      the unit of the first such line. */
  lemma {:induction false} MergeValues(ps: seq<Purchase>)
    ensures forall n :: n in Merge(ps).entries ==>
      Mentions(ps, n) && Merge(ps).entries[n].amount == TotalOf(ps, n) && Merge(ps).entries[n].unit == FirstUnit(ps, n)
  {
    if ps != [] {
      var init, p := ps[..|ps| - 1], ps[|ps| - 1];
      assert ps == init + [p];
      MergeKeys(init);
      MergeValues(init);
      forall n | n in Merge(ps).entries
        ensures Mentions(ps, n) && Merge(ps).entries[n].amount == TotalOf(ps, n) && Merge(ps).entries[n].unit == FirstUnit(ps, n)
      {
        MentionsAppend(init, p, n);
        TotalOfAppend(init, p, n);
        if Mentions(init, n) {
          FirstUnitAppend(init, p, n);
        } else {
          TotalOfAbsent(init, n);
          FirstUnitOfNewName(init, p);
        }
      }
    }
  }

  /** The aggregate is a proper dict whose keys are exactly the names that
      occur; each amount is the sum over all lines with that name, and each
      unit is the unit of the first such line. */
  lemma MergeCorrect(ps: seq<Purchase>)
    ensures WellFormed(Merge(ps))
    ensures forall n :: n in Merge(ps).entries <==> Mentions(ps, n)
    ensures forall n :: n in Merge(ps).entries ==>
      Merge(ps).entries[n].amount == TotalOf(ps, n) && Merge(ps).entries[n].unit == FirstUnit(ps, n)
  {
    MergeKeys(ps);
    MergeValues(ps);
  }

  /** The dict holds one entry per distinct name, not one per line. */
  lemma MergeSize(ps: seq<Purchase>)
    ensures |Merge(ps).names| == |NameSet(ps)|
  {
    MergeCorrect(ps);
    var b := Merge(ps);
    NoDupCard(b.names);
    assert Elems(b.names) == NameSet(ps) by {
      forall n ensures n in Elems(b.names) <==> n in NameSet(ps) {
        if n in NameSet(ps) {
          var k :| 0 <= k < |ps| && ps[k].name == n;
          assert Mentions(ps, n);
        }
      }
    }
  }

  /** Flour in two recipes and salt in one give two entries, flour summed. */
  lemma FlourAndSalt()
    ensures Merge([Purchase("flour", "g", 200), Purchase("flour", "g", 300), Purchase("salt", "g", 5)])
      == ShopList(["flour", "salt"], map["flour" := Entry(500, "g"), "salt" := Entry(5, "g")])
  {
    var a, b, c := Purchase("flour", "g", 200), Purchase("flour", "g", 300), Purchase("salt", "g", 5);
    MergeStep([], a);
    MergeStep([a], b);
    MergeStep([a, b], c);
    assert Merge([a, b]) == ShopList(["flour"], map["flour" := Entry(500, "g")]);
  }

  /** Lines are keyed by name alone: a second unit under the same name is
      added to the first line's amount and its own unit is dropped. */
  lemma UnitsNotSeparated()
    ensures Merge([Purchase("flour", "g", 200), Purchase("flour", "kg", 1)])
      == ShopList(["flour"], map["flour" := Entry(201, "g")])
  {
    var ps := [Purchase("flour", "g", 200), Purchase("flour", "kg", 1)];
    assert ps[..1] == [ps[0]];
  }

  // ---------------------------------------------------------------------
  // The cart, recipe by recipe

  /** Lines grouped per recipe, concatenated in order. */
  function Flatten(gs: seq<seq<Purchase>>): seq<Purchase> {
    if gs == [] then []
    else Flatten(gs[..|gs| - 1]) + gs[|gs| - 1]
  }

  /** The dict the loops return, or None: for an empty cart, and as soon as
      one cart recipe has no lines (whatever the other recipes hold). */
  function Aggregate(gs: seq<seq<Purchase>>): Option<ShopList> {
    if gs == [] || exists k :: 0 <= k < |gs| && gs[k] == [] then None
    else Some(Merge(Flatten(gs)))
  }

  lemma {:induction false} FlattenNonEmpty(gs: seq<seq<Purchase>>)
    requires gs != [] && forall k :: 0 <= k < |gs| ==> gs[k] != []
    ensures Flatten(gs) != []
  {
    assert gs[|gs| - 1] != [];
  }

  /** A successful aggregate is never an empty dict. */
  lemma AggregateNeverEmpty(gs: seq<seq<Purchase>>)
    requires Aggregate(gs).Some?
    ensures Aggregate(gs).value.entries != map[]
  {
    FlattenNonEmpty(gs);
    var ps := Flatten(gs);
    MergeCorrect(ps);
    assert Mentions(ps, ps[0].name);
    assert ps[0].name in Merge(ps).entries;
  }

  /** How the aggregator sees one ingredient line: its ingredient's name
      and measurement unit, and the line's amount. */
  function ToPurchase(db: Db, l: RecipeIngredient): Purchase
    requires l.ingredient in db.ingredients
  {
    Purchase(db.ingredients[l.ingredient].name, db.ingredients[l.ingredient].measurementUnit, l.amount)
  }

  function PurchasesOf(db: Db, lines: seq<RecipeIngredient>): (r: seq<Purchase>)
    requires forall l :: l in lines ==> l.ingredient in db.ingredients
    ensures |r| == |lines|
    ensures forall k :: 0 <= k < |lines| ==> r[k] == ToPurchase(db, lines[k])
  {
    if lines == [] then []
    else PurchasesOf(db, lines[..|lines| - 1]) + [ToPurchase(db, lines[|lines| - 1])]
  }

  /** The lines of each recipe of `recipes`, in cart order. */
  function Groups(db: Db, recipes: seq<int>): (r: seq<seq<Purchase>>)
    requires LinesValid(db)
    ensures |r| == |recipes|
  {
    if recipes == [] then []
    else Groups(db, recipes[..|recipes| - 1]) + [PurchasesOf(db, LinesOf(db, recipes[|recipes| - 1]))]
  }

  /** A recipe's lines all name stored ingredients. */
  lemma LinesKnown(db: Db, recipe: int)
    requires LinesValid(db)
    ensures forall l :: l in LinesOf(db, recipe) ==> l.ingredient in db.ingredients
  {
  }

  /** The group at position `k` holds the lines of the `k`-th recipe. */
  lemma {:induction false} GroupAt(db: Db, recipes: seq<int>, k: int)
    requires LinesValid(db) && 0 <= k < |recipes|
    ensures Groups(db, recipes)[k] == PurchasesOf(db, LinesOf(db, recipes[k]))
  {
    if k < |recipes| - 1 {
      GroupAt(db, recipes[..|recipes| - 1], k);
    }
  }

  /** Every line of every recipe in the user's cart, in the order the loops visit them. */
  function CartPurchases(db: Db, user: int): seq<Purchase>
    requires LinesValid(db)
  {
    Flatten(Groups(db, CartOf(db, user)))
  }

  /** Some recipe in the user's cart has no ingredient line. */
  ghost predicate SomeCartRecipeBare(db: Db, user: int) {
    exists k :: 0 <= k < |CartOf(db, user)| && LinesOf(db, CartOf(db, user)[k]) == []
  }

  /** `get_shop_ingredients_or_none` as a function of the database. */
  function ShopIngredients(db: Db, user: int): Option<ShopList>
    requires LinesValid(db)
  {
    if user !in db.users then None
    else if CartOf(db, user) == [] then None
    else Aggregate(Groups(db, CartOf(db, user)))
  }

  /** None exactly for an unknown user, an empty cart, or a cart recipe
      without lines; otherwise a non-empty dict that sums every cart line by
      name and keeps each name's first unit, its keys in the order the names
      first occur. */
  lemma ShopIngredientsCorrect(db: Db, user: int)
    requires LinesValid(db)
    ensures ShopIngredients(db, user).None? <==>
      user !in db.users || CartOf(db, user) == [] || SomeCartRecipeBare(db, user)
    ensures ShopIngredients(db, user).Some? ==>
      var b := ShopIngredients(db, user).value;
      var ps := CartPurchases(db, user);
      && WellFormed(b)
      && b.entries != map[]
      && |b.names| == |NameSet(ps)|
      && (forall n :: n in b.entries <==> Mentions(ps, n))
      && (forall n :: n in b.entries ==> b.entries[n].amount == TotalOf(ps, n) && b.entries[n].unit == FirstUnit(ps, n))
      && InFirstOrder(ps, b.names)
  {
    var cart := CartOf(db, user);
    var gs := Groups(db, cart);
    forall k | 0 <= k < |cart| ensures gs[k] == [] <==> LinesOf(db, cart[k]) == [] {
      GroupAt(db, cart, k);
    }
    if ShopIngredients(db, user).Some? {
      MergeCorrect(CartPurchases(db, user));
      MergeSize(CartPurchases(db, user));
      MergeOrder(CartPurchases(db, user));
      AggregateNeverEmpty(gs);
    }
  }

  /** The purchases of a list of lines depend only on those lines and on
      the ingredients they name. */
  lemma {:induction false} PurchasesFrame(db1: Db, db2: Db, lines: seq<RecipeIngredient>)
    requires forall l :: l in lines ==> l.ingredient in db1.ingredients && l.ingredient in db2.ingredients
    requires forall l :: l in lines ==> db1.ingredients[l.ingredient] == db2.ingredients[l.ingredient]
    ensures PurchasesOf(db1, lines) == PurchasesOf(db2, lines)
  {
    if lines != [] {
      PurchasesFrame(db1, db2, lines[..|lines| - 1]);
    }
  }

  /** The groups of a list of recipes depend only on those recipes' lines
      and on the ingredients the lines name. */
  lemma {:induction false} GroupsFrame(db1: Db, db2: Db, recipes: seq<int>)
    requires LinesValid(db1) && LinesValid(db2)
    requires forall id :: id in recipes ==> LinesOf(db1, id) == LinesOf(db2, id)
    requires forall i :: i in db1.ingredients && i in db2.ingredients ==> db1.ingredients[i] == db2.ingredients[i]
    ensures Groups(db1, recipes) == Groups(db2, recipes)
  {
    if recipes != [] {
      var last := recipes[|recipes| - 1];
      GroupsFrame(db1, db2, recipes[..|recipes| - 1]);
      LinesKnown(db1, last);
      LinesKnown(db2, last);
      PurchasesFrame(db1, db2, LinesOf(db1, last));
    }
  }

  /** A user's shopping list depends only on whether the user exists, on
      their cart, on the lines of the recipes in it and on the ingredients
      those lines name. */
  lemma ShopIngredientsFrame(db1: Db, db2: Db, user: int)
    requires LinesValid(db1) && LinesValid(db2)
    requires (user in db1.users <==> user in db2.users)
    requires CartOf(db1, user) == CartOf(db2, user)
    requires forall id :: id in CartOf(db1, user) ==> LinesOf(db1, id) == LinesOf(db2, id)
    requires forall i :: i in db1.ingredients && i in db2.ingredients ==> db1.ingredients[i] == db2.ingredients[i]
    ensures ShopIngredients(db1, user) == ShopIngredients(db2, user)
  {
    GroupsFrame(db1, db2, CartOf(db1, user));
  }

  /** Deleting a recipe that is not in a user's cart leaves that user's
      shopping list as it was, sums, units and order included. */
  lemma DeleteRecipeKeepsShopList(db: Db, id: int, user: int)
    requires Valid(db) && id !in CartOf(db, user)
    ensures LinesValid(DeleteRecipe(db, id))
    ensures ShopIngredients(DeleteRecipe(db, id), user) == ShopIngredients(db, user)
  {
    var after := DeleteRecipe(db, id);
    DeleteRecipePreservesValid(db, id);
    WhereNarrower(db.shoppingCarts, (p: Pair) => p.1 != id, (p: Pair) => p.0 == user);
    assert CartOf(after, user) == CartOf(db, user);
    forall r | r in CartOf(db, user) ensures LinesOf(after, r) == LinesOf(db, r) {
      WhereNarrower(db.recipeIngredients, (l: RecipeIngredient) => l.recipe != id,
                    (l: RecipeIngredient) => l.recipe == r);
    }
    ShopIngredientsFrame(after, db, user);
  }

  /** Deleting an ingredient that no recipe in a user's cart uses leaves
      that user's shopping list as it was. */
  lemma DeleteIngredientKeepsShopList(db: Db, id: int, user: int)
    requires Valid(db)
    requires forall l :: l in db.recipeIngredients && l.recipe in CartOf(db, user) ==> l.ingredient != id
    ensures LinesValid(DeleteIngredient(db, id))
    ensures ShopIngredients(DeleteIngredient(db, id), user) == ShopIngredients(db, user)
  {
    var after := DeleteIngredient(db, id);
    DeleteIngredientPreservesValid(db, id);
    forall r | r in CartOf(db, user) ensures LinesOf(after, r) == LinesOf(db, r) {
      WhereNarrower(db.recipeIngredients, (l: RecipeIngredient) => l.ingredient != id,
                    (l: RecipeIngredient) => l.recipe == r);
    }
    ShopIngredientsFrame(after, db, user);
  }

  /** Deleting another user, none of whose recipes are in a user's cart,
      leaves that user's shopping list as it was. */
  lemma DeleteUserKeepsShopList(db: Db, victim: int, user: int)
    requires Valid(db) && victim != user
    requires forall id :: id in CartOf(db, user) ==> id !in AuthoredBy(db, victim)
    ensures LinesValid(DeleteUser(db, victim))
    ensures ShopIngredients(DeleteUser(db, victim), user) == ShopIngredients(db, user)
  {
    var after := DeleteUser(db, victim);
    var gone := AuthoredBy(db, victim);
    DeleteUserPreservesValid(db, victim);
    WhereNarrower(db.shoppingCarts, (p: Pair) => p.0 != victim && p.1 !in gone, (p: Pair) => p.0 == user);
    assert CartOf(after, user) == CartOf(db, user);
    forall r | r in CartOf(db, user) ensures LinesOf(after, r) == LinesOf(db, r) {
      WhereNarrower(db.recipeIngredients, (l: RecipeIngredient) => l.recipe !in gone,
                    (l: RecipeIngredient) => l.recipe == r);
    }
    ShopIngredientsFrame(after, db, user);
  }

  // ---------------------------------------------------------------------
  // The imperative aggregator

  lemma MergeStep(ps: seq<Purchase>, p: Purchase)
    ensures Merge(ps + [p]) == Add(Merge(ps), p)
  {
    assert (ps + [p])[..|ps|] == ps;
  }

  lemma LineStep(db: Db, lines: seq<RecipeIngredient>, j: int)
    requires forall l :: l in lines ==> l.ingredient in db.ingredients
    requires 0 <= j < |lines|
    ensures PurchasesOf(db, lines[..j + 1]) == PurchasesOf(db, lines[..j]) + [ToPurchase(db, lines[j])]
  {
    assert lines[..j + 1][..j] == lines[..j];
  }

  lemma FlattenStep(gs: seq<seq<Purchase>>, i: int)
    requires 0 <= i < |gs|
    ensures Flatten(gs[..i + 1]) == Flatten(gs[..i]) + gs[i]
  {
    assert gs[..i + 1][..i] == gs[..i];
  }

  /** None of the first `i` groups is empty. */
  ghost predicate FilledUpTo(gs: seq<seq<Purchase>>, i: int)
    requires 0 <= i <= |gs|
  {
    i == 0 || (FilledUpTo(gs, i - 1) && gs[i - 1] != [])
  }

  lemma {:induction false} FilledUpToAll(gs: seq<seq<Purchase>>, i: int)
    requires 0 <= i <= |gs| && FilledUpTo(gs, i)
    ensures forall k :: 0 <= k < i ==> gs[k] != []
  {
    if i > 0 {
      FilledUpToAll(gs, i - 1);
    }
  }

  lemma AggregateFound(gs: seq<seq<Purchase>>)
    requires gs != [] && forall k :: 0 <= k < |gs| ==> gs[k] != []
    ensures Aggregate(gs) == Some(Merge(Flatten(gs)))
  {
  }

  /** Having walked every group without meeting an empty one, the loop's
      dict is the aggregate. */
  lemma CartDone(gs: seq<seq<Purchase>>, i: int)
    requires 0 < i == |gs| && FilledUpTo(gs, i)
    ensures Aggregate(gs) == Some(Merge(Flatten(gs[..i])))
  {
    assert gs[..i] == gs;
    FilledUpToAll(gs, i);
    AggregateFound(gs);
  }

  lemma AggregateBare(gs: seq<seq<Purchase>>, i: int)
    requires 0 <= i < |gs| && gs[i] == []
    ensures Aggregate(gs) == None
  {
  }

  /** The inner loop of get_shop_ingredients_or_none: folds one recipe's
      lines into the dict, in place. */
  method AddLines(db: Db, shop: ShopList, ghost done: seq<Purchase>, lines: seq<RecipeIngredient>)
    returns (next: ShopList)
    requires forall l :: l in lines ==> l.ingredient in db.ingredients
    requires shop == Merge(done)
    ensures next == Merge(done + PurchasesOf(db, lines))
  {
    next := shop;
    ghost var seen := done;
    var j := 0;
    while j < |lines|
      invariant 0 <= j <= |lines|
      invariant seen == done + PurchasesOf(db, lines[..j])
      invariant next == Merge(seen)
    {
      var line := lines[j];
      var ingredient := db.ingredients[line.ingredient];
      var p := Purchase(ingredient.name, ingredient.measurementUnit, line.amount);
      LineStep(db, lines, j);
      MergeStep(seen, p);
      next := Add(next, p);
      seen := seen + [p];
      j := j + 1;
    }
    assert lines[..j] == lines;
  }

  /** One pass of the outer loop: fetch the lines of the `i`-th cart recipe
      and fold them in, or report that the recipe has none. */
  method AddRecipe(db: Db, cart: seq<int>, i: int, shop: ShopList, ghost done: seq<Purchase>)
    returns (next: ShopList, bare: bool)
    requires LinesValid(db) && 0 <= i < |cart| && shop == Merge(done)
    ensures bare <==> Groups(db, cart)[i] == []
    ensures !bare ==> next == Merge(done + Groups(db, cart)[i])
  {
    var lines := LinesOf(db, cart[i]);
    LinesKnown(db, cart[i]);
    GroupAt(db, cart, i);
    if lines == [] {
      return shop, true;
    }
    next := AddLines(db, shop, done, lines);
    bare := false;
  }

  /** The outer loop of get_shop_ingredients_or_none over a non-empty cart:
      stops with None at the first recipe without lines. */
  method AddCart(db: Db, cart: seq<int>) returns (r: Option<ShopList>)
    requires LinesValid(db) && cart != []
    ensures r == Aggregate(Groups(db, cart))
  {
    ghost var gs := Groups(db, cart);
    var shop := EmptyList;
    ghost var visited: seq<Purchase> := [];
    var i := 0;
    while i < |cart|
      invariant 0 <= i <= |cart|
      invariant FilledUpTo(gs, i)
      invariant visited == Flatten(gs[..i])
      invariant shop == Merge(visited)
    {
      var bare;
      shop, bare := AddRecipe(db, cart, i, shop, visited);
      if bare {
        AggregateBare(gs, i);
        return None;
      }
      FlattenStep(gs, i);
      visited := visited + gs[i];
      i := i + 1;
    }
    CartDone(gs, i);
    return Some(shop);
  }

  /** get_shop_ingredients_or_none: None for an unknown user or an empty
      cart, otherwise the cart walked recipe by recipe, line by line. */
  method GetShopIngredientsOrNone(db: Db, user: int) returns (r: Option<ShopList>)
    requires LinesValid(db)
    ensures r == ShopIngredients(db, user)
  {
    if user !in db.users {
      return None;
    }
    var cart := CartOf(db, user);
    if cart == [] {
      return None;
    }
    r := AddCart(db, cart);
  }

  /** How a call ends: it returns a value, or an exception escapes it. */
  datatype Outcome = Raised | Returned(value: Option<ShopList>)

  /** get_shop_ingredients_or_none as written. For an unknown user the
      lookup raises DoesNotExist, and evaluating the except clause then
      raises AttributeError: the clause names `models.CustomUser`, while the
      `models` in scope is `django.db.models`, which has no such attribute.
      For a stored user it returns what `GetShopIngredientsOrNone` does. */
  method GetShopIngredientsAsWritten(db: Db, user: int) returns (r: Outcome)
    requires LinesValid(db)
    ensures r.Raised? <==> user !in db.users
    ensures r.Returned? ==> r.value == ShopIngredients(db, user)
  {
    if user !in db.users {
      return Raised;
    }
    var shop := GetShopIngredientsOrNone(db, user);
    return Returned(shop);
  }

  // ---------------------------------------------------------------------
  // The text lines of the document

  const Header: string := "СПИСОК ИНГРЕДИЕНТОВ К ПОКУПКЕ:"
  const ErrorText: string := "No shopping cart or something wrong with other data."
  const FileName: string := "buying_list.pdf"

  /** `f'{count}. {item} - {amount} {unit}'` */
  function EntryLine(index: int, name: string, e: Entry): string {
    IntToString(index) + ". " + name + " - " + IntToString(e.amount) + " " + e.unit
  }

  /** The header, a blank line, then one line per key, numbered from 1 in
      insertion order. */
  ghost predicate IsListing(lines: seq<string>, b: ShopList)
    requires KeysListed(b)
  {
    ListedUnder(lines, b, Header)
  }

  /** `IsListing` under any header line `head`. */
  ghost predicate ListedUnder(lines: seq<string>, b: ShopList, head: string)
    requires KeysListed(b)
  {
    && |lines| == |b.names| + 2
    && lines[0] == head
    && lines[1] == ""
    && forall k :: 2 <= k < |lines| ==> lines[k] == EntryLine(k - 1, b.names[k - 2], b.entries[b.names[k - 2]])
  }

  /** The header, a blank line and the lines of the first `i` keys. */
  ghost function ListingUpTo(b: ShopList, head: string, i: nat): seq<string>
    requires KeysListed(b) && i <= |b.names|
  {
    if i == 0 then [head, ""]
    else ListingUpTo(b, head, i - 1) + [EntryLine(i, b.names[i - 1], b.entries[b.names[i - 1]])]
  }

  lemma {:induction false} ListingUpToShape(b: ShopList, head: string, i: nat)
    requires KeysListed(b) && i <= |b.names|
    ensures |ListingUpTo(b, head, i)| == i + 2
    ensures ListingUpTo(b, head, i)[0] == head && ListingUpTo(b, head, i)[1] == ""
    ensures forall k :: 2 <= k < i + 2 ==>
              ListingUpTo(b, head, i)[k] == EntryLine(k - 1, b.names[k - 2], b.entries[b.names[k - 2]])
  {
    if i > 0 {
      var prev := ListingUpTo(b, head, i - 1);
      var last := EntryLine(i, b.names[i - 1], b.entries[b.names[i - 1]]);
      ListingUpToShape(b, head, i - 1);
      assert ListingUpTo(b, head, i) == prev + [last];
      forall k | 2 <= k < i + 2
        ensures ListingUpTo(b, head, i)[k] == EntryLine(k - 1, b.names[k - 2], b.entries[b.names[k - 2]])
      {
        if k < i + 1 {
          assert ListingUpTo(b, head, i)[k] == prev[k];
        } else {
          assert ListingUpTo(b, head, i)[k] == last;
        }
      }
    }
  }

  /** The line-building loop of create_pdffile_response, under the header
      line `head` it starts from. */
  method WriteLines(b: ShopList, head: string) returns (lines: seq<string>)
    requires KeysListed(b)
    ensures ListedUnder(lines, b, head)
  {
    lines := [head, ""];
    var count := 1;
    var i := 0;
    while i < |b.names|
      invariant 0 <= i <= |b.names|
      invariant count == i + 1
      invariant lines == ListingUpTo(b, head, i)
    {
      var item := b.names[i];
      lines := lines + [EntryLine(count, item, b.entries[item])];
      count := count + 1;
      i := i + 1;
    }
    ListingUpToShape(b, head, i);
  }

  /** The text lines create_pdffile_response draws: its header, a blank
      line and the numbered entries. */
  method RenderLines(b: ShopList) returns (lines: seq<string>)
    requires KeysListed(b)
    ensures IsListing(lines, b)
  {
    lines := WriteLines(b, Header);
  }

  /** What create_pdffile_response answers (the rendered document itself is
      left to the PDF library): a 400 error, the document's text lines, or
      the server error of an exception that escapes the handler. */
  datatype PdfResponse = BadRequest(message: string) | Document(filename: string, lines: seq<string>) | ServerError

  /** create_pdffile_response over the evidently intended aggregator: 400
      exactly when it finds nothing to list, otherwise the listing. */
  method CreatePdfFileResponse(db: Db, user: int) returns (resp: PdfResponse)
    requires Valid(db)
    ensures !resp.ServerError?
    ensures resp.BadRequest? <==> ShopIngredients(db, user).None?
    ensures resp.BadRequest? ==> resp.message == ErrorText
    ensures resp.Document? ==>
      var b := ShopIngredients(db, user).value;
      WellFormed(b) && resp.filename == FileName && IsListing(resp.lines, b)
  {
    var buyingList := GetShopIngredientsOrNone(db, user);
    ShopIngredientsCorrect(db, user);
    if buyingList.None? || buyingList.value.entries == map[] {
      return BadRequest(ErrorText);
    }
    var lines := RenderLines(buyingList.value);
    return Document(FileName, lines);
  }

  /** create_pdffile_response as written: the aggregator's AttributeError on
      an unknown user escapes as a server error; every other user gets the
      answer of `CreatePdfFileResponse`. */
  method CreatePdfFileResponseAsWritten(db: Db, user: int) returns (resp: PdfResponse)
    requires Valid(db)
    ensures resp.ServerError? <==> user !in db.users
    ensures resp.BadRequest? <==> user in db.users && ShopIngredients(db, user).None?
    ensures resp.Document? ==>
      var b := ShopIngredients(db, user).value;
      WellFormed(b) && resp.filename == FileName && IsListing(resp.lines, b)
  {
    var outcome := GetShopIngredientsAsWritten(db, user);
    if outcome.Raised? {
      return ServerError;
    }
    resp := CreatePdfFileResponse(db, user);
  }
}

=== FILE: permissions.dfy ===
/** The object-level permission classes of the recipe API. Each one decides
    from the requester, the HTTP method and the object's author. Reading
    `is_admin` on Django's anonymous user raises, so each decision asks for
    an authenticated requester wherever it reaches that attribute. */
module Permissions {
  import opened Http

  /** `request.user == obj.author`: only a stored user can be an author. */
  predicate IsAuthor(user: Requester, author: int) {
    user.Authenticated? && user.id == author
  }

  /** `IsAuthorOrAdminOrDenied.has_object_permission`. */
  function IsAuthorOrAdminOrDenied(user: Requester, author: int): (allowed: bool)
    requires user.Authenticated?
    ensures allowed <==> user.id == author || user.isAdmin
  {
    IsAuthor(user, author) || user.isAdmin
  }

  /** `IsAdminOrReadOnly.has_object_permission`. */
  function IsAdminOrReadOnly(user: Requester, httpMethod: string): (allowed: bool)
    requires httpMethod in SafeMethods || user.Authenticated?
    ensures httpMethod in SafeMethods ==> allowed
    ensures httpMethod !in SafeMethods ==> (allowed <==> user.isAdmin)
  {
    if httpMethod in SafeMethods then true
    else user.isAdmin
  }

  /** `IsAuthorOrAdminOrReadOnly.has_object_permission`. */
  function IsAuthorOrAdminOrReadOnly(user: Requester, httpMethod: string, author: int): (allowed: bool)
    requires httpMethod in SafeMethods || httpMethod == "POST" || user.Authenticated?
    ensures httpMethod in SafeMethods ==> allowed
    ensures httpMethod == "POST" ==> (allowed <==> user.Authenticated?)
    ensures httpMethod !in SafeMethods && httpMethod != "POST" ==> (allowed <==> user.id == author || user.isAdmin)
  {
    if httpMethod in SafeMethods then true
    else if httpMethod == "POST" then !user.Anonymous?
    else IsAuthor(user, author) || user.isAdmin
  }

  /** An anonymous requester may read but never create. */
  lemma AnonymousOnlyReads(httpMethod: string, author: int)
    requires httpMethod in SafeMethods || httpMethod == "POST"
    ensures IsAuthorOrAdminOrReadOnly(Anonymous, httpMethod, author) <==> httpMethod in SafeMethods
  {
  }

  /** An admin is allowed every method by every class. */
  lemma AdminAllowedEverything(id: int, httpMethod: string, author: int)
    ensures IsAuthorOrAdminOrDenied(Authenticated(id, true), author)
    ensures IsAdminOrReadOnly(Authenticated(id, true), httpMethod)
    ensures IsAuthorOrAdminOrReadOnly(Authenticated(id, true), httpMethod, author)
  {
  }

  /** `IsAuthorOrAdminOrReadOnly` allows whatever either of the other two
      classes allows. */
  lemma ReadOnlyVariantIsWidest(user: Requester, httpMethod: string, author: int)
    requires user.Authenticated?
    ensures IsAuthorOrAdminOrDenied(user, author) ==> IsAuthorOrAdminOrReadOnly(user, httpMethod, author)
    ensures IsAdminOrReadOnly(user, httpMethod) ==> IsAuthorOrAdminOrReadOnly(user, httpMethod, author)
  {
  }

  /** An authenticated user who is neither the author nor an admin may only
      read or create. */
  lemma StrangerOnlyReadsOrCreates(id: int, httpMethod: string, author: int)
    requires id != author
    ensures IsAuthorOrAdminOrReadOnly(Authenticated(id, false), httpMethod, author)
      <==> httpMethod in SafeMethods || httpMethod == "POST"
    ensures !IsAuthorOrAdminOrDenied(Authenticated(id, false), author)
  {
  }
}

=== FILE: recipe_views.dfy ===
/** The recipe-side handlers that change or read the membership tables: the
    `favorite` toggle, the strict subscribe/unsubscribe view, and the
    subscription feed of recipes by followed authors. Every handler runs for
    an authenticated user, given by its primary key. */
module RecipeViews {
  import opened Wrappers
  import opened Rows
  import opened Numerals
  import opened Http
  import opened Models
  import opened Store

  const AlreadyFavoritedText: string := "Recipe already in user's favorites."
  const NotFavoritedText: string := "Choosen recipe is not in favorites."
  const AlreadySubscribedText: string := "You are already subscribed to this author."

  // ---------------------------------------------------------------------
  // RecipeListViewSet.favorite

  /** GET adds the (user, recipe) favorite unless it is already there; DELETE
      removes it unless it is missing. An unknown recipe is a 404 either way. */
  method Favorite(store: Database, user: int, pk: int, verb: Verb) returns (reply: Reply)
    requires store.Valid() && user in store.db.users
    modifies store
    ensures store.Valid()
    ensures pk !in old(store.db.recipes) ==> reply == NotFound && store.db == old(store.db)
    ensures pk in old(store.db.recipes) && verb == Get && (user, pk) in old(store.db.favorites) ==>
      reply == Reply(StatusBadRequest, Some(AlreadyFavoritedText)) && store.db == old(store.db)
    ensures pk in old(store.db.recipes) && verb == Get && (user, pk) !in old(store.db.favorites) ==>
      reply == Reply(StatusCreated, None) &&
      store.db == old(store.db).(favorites := old(store.db.favorites) + [(user, pk)])
    ensures pk in old(store.db.recipes) && verb == Delete && (user, pk) !in old(store.db.favorites) ==>
      reply == Reply(StatusBadRequest, Some(NotFavoritedText)) && store.db == old(store.db)
    ensures pk in old(store.db.recipes) && verb == Delete && (user, pk) in old(store.db.favorites) ==>
      reply == Reply(StatusNoContent, None) &&
      store.db == old(store.db).(favorites := Without(old(store.db.favorites), (user, pk)))
  {
    if pk !in store.db.recipes {
      return NotFound;
    }
    match verb
    case Get =>
      if (user, pk) in store.db.favorites {
        return Reply(StatusBadRequest, Some(AlreadyFavoritedText));
      }
      var _ := store.CreateFavorite(user, pk);
      return Reply(StatusCreated, None);
    case Delete =>
      if (user, pk) !in store.db.favorites {
        return Reply(StatusBadRequest, Some(NotFavoritedText));
      }
      store.DeleteFavorite(user, pk);
      return Reply(StatusNoContent, None);
  }

  /** Favoriting a recipe and then unfavoriting it leaves every table as it was. */
  method FavoriteThenUnfavorite(store: Database, user: int, pk: int) returns (added: Reply, removed: Reply)
    requires store.Valid() && user in store.db.users && pk in store.db.recipes
    requires (user, pk) !in store.db.favorites
    modifies store
    ensures store.Valid()
    ensures added.status == StatusCreated && removed.status == StatusNoContent
    ensures store.db == old(store.db)
  {
    added := Favorite(store, user, pk, Get);
    removed := Favorite(store, user, pk, Delete);
    AppendThenWithout(old(store.db.favorites), (user, pk));
  }

  // ---------------------------------------------------------------------
  // SubscriptionViewSet

  /** `get`: 404 for an unknown author, then 400 for oneself, then 400 when
      already following; otherwise exactly the (user, author) row is added. */
  method SubscriptionGet(store: Database, user: int, author: int) returns (reply: Reply)
    requires store.Valid() && user in store.db.users
    modifies store
    ensures store.Valid()
    ensures author !in old(store.db.users) ==> reply == NotFound && store.db == old(store.db)
    ensures author in old(store.db.users) && user == author ==>
      reply == Reply(StatusBadRequest, Some(SelfSubscribeText)) && store.db == old(store.db)
    ensures author in old(store.db.users) && user != author && (user, author) in old(store.db.follows) ==>
      reply == Reply(StatusBadRequest, Some(AlreadySubscribedText)) && store.db == old(store.db)
    ensures author in old(store.db.users) && user != author && (user, author) !in old(store.db.follows) ==>
      reply == Reply(StatusCreated, None) &&
      store.db == old(store.db).(follows := old(store.db.follows) + [(user, author)])
  {
    if author !in store.db.users {
      return NotFound;
    }
    if user == author {
      return Reply(StatusBadRequest, Some(SelfSubscribeText));
    }
    if (user, author) in store.db.follows {
      return Reply(StatusBadRequest, Some(AlreadySubscribedText));
    }
    var _ := store.CreateFollow(user, author);
    return Reply(StatusCreated, None);
  }

  /** `delete`: 404 for an unknown author, 400 when not following; otherwise
      exactly the (user, author) row is removed. There is no check for oneself. */
  method SubscriptionDelete(store: Database, user: int, author: int) returns (reply: Reply)
    requires store.Valid() && user in store.db.users
    modifies store
    ensures store.Valid()
    ensures author !in old(store.db.users) ==> reply == NotFound && store.db == old(store.db)
    ensures author in old(store.db.users) && (user, author) !in old(store.db.follows) ==>
      reply == Reply(StatusBadRequest, Some(NoSubscriptionText)) && store.db == old(store.db)
    ensures author in old(store.db.users) && (user, author) in old(store.db.follows) ==>
      reply == Reply(StatusNoContent, None) &&
      store.db == old(store.db).(follows := Without(old(store.db.follows), (user, author)))
  {
    if author !in store.db.users {
      return NotFound;
    }
    if (user, author) !in store.db.follows {
      return Reply(StatusBadRequest, Some(NoSubscriptionText));
    }
    store.DeleteFollow(user, author);
    return Reply(StatusNoContent, None);
  }

  // ---------------------------------------------------------------------
  // user_subscriptions

  /** `int(request.query_params.get('recipes_limit'))`, or None where that
      raises TypeError (no parameter) or ValueError (not an integer). */
  function ParseLimit(param: Option<string>): (r: Option<int>)
    ensures param.None? ==> r.None?
  {
    match param
    case None => None
    case Some(text) => ParseInt(text)
  }

  /** The decimal text of any count is read back as that limit. */
  lemma ParseLimitOfCount(n: nat)
    ensures ParseLimit(Some(NatToString(n))) == Some(n)
  {
    ParseIntToString(n);
  }

  /** The limit parses to no value or to a value a queryset slice accepts
      (a negative bound makes the slice raise). */
  predicate LimitUsable(param: Option<string>) {
    ParseLimit(param).None? || ParseLimit(param).value >= 0
  }

  /** The slice bound `[:recipes_limit]`: None means the whole list. */
  function SliceBound(param: Option<string>): (r: Option<nat>)
    requires LimitUsable(param)
    ensures r.None? <==> ParseLimit(param).None?
    ensures r.Some? ==> r.value == ParseLimit(param).value
  {
    match ParseLimit(param)
    case None => None
    case Some(n) => Some(n)
  }

  /** A count written in decimal is a usable bound, and the slice keeps
      exactly that many recipes at most. */
  lemma SliceBoundOfCount(n: nat)
    ensures LimitUsable(Some(NatToString(n)))
    ensures SliceBound(Some(NatToString(n))) == Some(n)
  {
    ParseLimitOfCount(n);
  }

  /** A negative number is not a usable bound: the slice raises. */
  lemma NegativeLimitUnusable(n: int)
    requires n < 0
    ensures !LimitUsable(Some(IntToString(n)))
  {
    ParseIntToString(n);
  }

  /** A text with a character other than whitespace, a sign or a digit is
      refused by `int()` and leaves the feed unsliced. */
  lemma SliceBoundRejects(text: string, k: int)
    requires 0 <= k < |text| && !IsSpace(text[k]) && !IsDigit(text[k]) && text[k] != '-' && text[k] != '+'
    ensures LimitUsable(Some(text))
    ensures SliceBound(Some(text)) == None
  {
    ParseIntRejects(text, k);
  }

  /** `recipes_limit=%1C5` sets no limit: `int()` does not skip U+001C. */
  lemma SeparatorLimitIgnored()
    ensures LimitUsable(Some("\U{001C}5"))
    ensures SliceBound(Some("\U{001C}5")) == None
  {
    SeparatorNotSkipped();
  }

  /** The recipes whose author the user follows. */
  function FollowedRecipes(db: Db, user: int): (r: set<int>)
    ensures forall id :: id in r <==> id in db.recipes && (user, db.recipes[id].author) in db.follows
  {
    set id | id in db.recipes && (user, db.recipes[id].author) in db.follows
  }

  /** The feed's answer: 200 with no body when the user follows no one, the
      page of recipe ids (pagination itself is not modelled), or the server
      error of the exception a negative slice bound raises. */
  datatype Feed = NoBody | Page(recipes: seq<int>) | Raised

  /** Collects the followed authors in a loop, then lists the recipes by
      those authors, newest (largest id) first, cut to `recipes_limit`; a
      negative limit makes the queryset slice raise. */
  method UserSubscriptions(db: Db, user: int, recipesLimit: Option<string>) returns (feed: Feed)
    ensures feed.NoBody? <==> RowsOf(db.follows, user) == []
    ensures feed.Raised? <==> RowsOf(db.follows, user) != [] && !LimitUsable(recipesLimit)
    ensures feed.Page? ==> LimitUsable(recipesLimit)
    ensures feed.Page? ==> feed.recipes == Take(DescendingIds(FollowedRecipes(db, user)), SliceBound(recipesLimit))
    ensures feed.Page? ==> Descending(feed.recipes)
    ensures feed.Page? ==> forall id :: id in feed.recipes ==>
      id in db.recipes && (user, db.recipes[id].author) in db.follows
    ensures feed.Page? ==> forall x, y :: x in FollowedRecipes(db, user) && x !in feed.recipes && y in feed.recipes ==> y > x
    ensures feed.Page? && ParseLimit(recipesLimit).None? ==> |feed.recipes| == |FollowedRecipes(db, user)|
    ensures feed.Page? && ParseLimit(recipesLimit).Some? ==>
      |feed.recipes| == Min(ParseLimit(recipesLimit).value, |FollowedRecipes(db, user)|)
  {
    var subscripts := RowsOf(db.follows, user);
    if subscripts == [] {
      return NoBody;
    }
    var authors: seq<int> := [];
    var i := 0;
    while i < |subscripts|
      invariant 0 <= i <= |subscripts|
      invariant |authors| == i
      invariant forall k :: 0 <= k < i ==> authors[k] == subscripts[k].1
    {
      authors := authors + [subscripts[i].1];
      i := i + 1;
    }
    assert authors == Targets(subscripts);
    var ids := set id | id in db.recipes && db.recipes[id].author in authors;
    assert ids == FollowedRecipes(db, user) by {
      forall id | id in db.recipes
        ensures db.recipes[id].author in authors <==> (user, db.recipes[id].author) in db.follows
      {
        TargetsOfUser(db.follows, user, db.recipes[id].author);
      }
    }
    if !LimitUsable(recipesLimit) {
      return Raised;
    }
    var bound := SliceBound(recipesLimit);
    feed := Page(Take(DescendingIds(ids), bound));
    TakeNewest(ids, bound);
  }

  function Min(a: int, b: int): int {
    if a < b then a else b
  }
}

=== FILE: rows.dfy ===
/** Row-table helpers shared by the model: a database table whose rows are kept
    in the order the database returns them is a `seq`, a query with a WHERE
    clause is `Where`, a unique constraint is `NoDup`, and `ORDER BY id DESC`
    is `DescendingIds`. */
module Rows {
  import opened Wrappers

  /** The rows of `s` that satisfy `keep`, in their original order. */
  function Where<T(!new)>(s: seq<T>, keep: T -> bool): (r: seq<T>)
    ensures forall x :: x in r <==> x in s && keep(x)
    ensures |r| <= |s|
  {
    if s == [] then []
    else (if keep(s[0]) then [s[0]] else []) + Where(s[1..], keep)
  }

  /** No row occurs twice: what a database unique constraint guarantees. */
  predicate NoDup<T(==)>(s: seq<T>) {
    forall i, j :: 0 <= i < j < |s| ==> s[i] != s[j]
  }

  /** The set of rows of a table. */
  ghost function Elems<T>(s: seq<T>): set<T> {
    set x | x in s
  }

  lemma {:induction false} NoDupCons<T>(x: T, s: seq<T>)
    requires x !in s && NoDup(s)
    ensures NoDup([x] + s)
  {
    var t := [x] + s;
    forall i, j | 0 <= i < j < |t| ensures t[i] != t[j] {
      if i == 0 {
        assert t[j] == s[j - 1];
      } else {
        assert t[i] == s[i - 1] && t[j] == s[j - 1];
      }
    }
  }

  /** Appending a row that is not yet present keeps a table duplicate-free. */
  lemma NoDupAppend<T>(s: seq<T>, x: T)
    requires x !in s && NoDup(s)
    ensures NoDup(s + [x])
  {
    var t := s + [x];
    forall i, j | 0 <= i < j < |t| ensures t[i] != t[j] {
      assert t[i] == s[i];
    }
  }

  /** Filtering a table never creates a duplicate. */
  lemma {:induction false} WhereNoDup<T(!new)>(s: seq<T>, keep: T -> bool)
    requires NoDup(s)
    ensures NoDup(Where(s, keep))
  {
    if s != [] {
      assert NoDup(s[1..]) by {
        forall i, j | 0 <= i < j < |s[1..]| ensures s[1..][i] != s[1..][j] {
          assert s[1..][i] == s[i + 1] && s[1..][j] == s[j + 1];
        }
      }
      WhereNoDup(s[1..], keep);
      assert s[0] !in s[1..] by {
        forall k | 0 <= k < |s[1..]| ensures s[1..][k] != s[0] {
          assert s[1..][k] == s[k + 1];
        }
      }
      if keep(s[0]) {
        NoDupCons(s[0], Where(s[1..], keep));
      } else {
        assert [] + Where(s[1..], keep) == Where(s[1..], keep);
      }
    }
  }

  /** Where distributes over concatenation. */
  lemma {:induction false} WhereAppend<T(!new)>(a: seq<T>, b: seq<T>, keep: T -> bool)
    ensures Where(a + b, keep) == Where(a, keep) + Where(b, keep)
  {
    if a == [] {
      assert a + b == b;
    } else {
      assert (a + b)[1..] == a[1..] + b;
      WhereAppend(a[1..], b, keep);
    }
  }

  /** A filter every row passes leaves the table as it is. */
  lemma {:induction false} WhereKeepsAll<T(!new)>(s: seq<T>, keep: T -> bool)
    requires forall x :: x in s ==> keep(x)
    ensures Where(s, keep) == s
  {
    if s != [] {
      WhereKeepsAll(s[1..], keep);
      assert [s[0]] + s[1..] == s;
    }
  }

  /** Filtering keeps every copy of a row that passes and none of one that
      does not. */
  lemma {:induction false} WhereCount<T(!new)>(s: seq<T>, keep: T -> bool, x: T)
    ensures multiset(Where(s, keep))[x] == if keep(x) then multiset(s)[x] else 0
  {
    if s != [] {
      WhereCount(s[1..], keep, x);
      assert s == [s[0]] + s[1..];
    }
  }

  /** A second, narrower filter sees through the first: filtering the rows
      that passed `wide` by `narrow` is filtering by `narrow` alone, in the
      same order, when every row that passes `narrow` also passes `wide`. */
  lemma {:induction false} WhereNarrower<T(!new)>(s: seq<T>, wide: T -> bool, narrow: T -> bool)
    requires forall x :: x in s && narrow(x) ==> wide(x)
    ensures Where(Where(s, wide), narrow) == Where(s, narrow)
  {
    if s != [] {
      var rest := Where(s[1..], wide);
      WhereNarrower(s[1..], wide, narrow);
      if wide(s[0]) {
        WhereAppend([s[0]], rest, narrow);
      } else {
        assert Where(s, wide) == rest;
      }
    }
  }

  /** The table with every copy of row `x` deleted. */
  function Without<T(==,!new)>(s: seq<T>, x: T): (r: seq<T>)
    ensures forall y :: y in r <==> y in s && y != x
  {
    Where(s, y => y != x)
  }

  /** Deleting a row keeps a duplicate-free table duplicate-free. */
  lemma WithoutNoDup<T(!new)>(s: seq<T>, x: T)
    requires NoDup(s)
    ensures NoDup(Without(s, x))
  {
    WhereNoDup(s, y => y != x);
  }

  /** Inserting a fresh row and then deleting it restores the table exactly. */
  lemma AppendThenWithout<T(!new)>(s: seq<T>, x: T)
    requires x !in s
    ensures Without(s + [x], x) == s
  {
    var keep := y => y != x;
    WhereAppend(s, [x], keep);
    WhereKeepsAll(s, keep);
    assert Where([x], keep) == [];
  }

  /** A table without duplicates holds as many rows as distinct values. */
  lemma {:induction false} NoDupCard<T>(s: seq<T>)
    requires NoDup(s)
    ensures |Elems(s)| == |s|
  {
    if s != [] {
      var init := s[..|s| - 1];
      assert NoDup(init) by {
        forall i, j | 0 <= i < j < |init| ensures init[i] != init[j] {
          assert init[i] == s[i] && init[j] == s[j];
        }
      }
      NoDupCard(init);
      assert s == init + [s[|s| - 1]];
      assert s[|s| - 1] !in init by {
        forall k | 0 <= k < |init| ensures init[k] != s[|s| - 1] {
          assert init[k] == s[k];
        }
      }
      assert Elems(s) == Elems(init) + {s[|s| - 1]};
    }
  }

  /** Strictly decreasing: the order `ORDER BY id DESC` produces over unique ids. */
  predicate Descending(s: seq<int>) {
    forall i, j :: 0 <= i < j < |s| ==> s[i] > s[j]
  }

  lemma {:induction false} MaxExists(s: set<int>)
    requires s != {}
    ensures exists m :: m in s && forall x :: x in s ==> x <= m
    decreases |s|
  {
    if forall x :: x !in s { assert false; }
    var y :| y in s;
    var rest := s - {y};
    if rest == {} {
      forall x | x in s ensures x <= y {
        assert x == y || x in rest;
      }
    } else {
      MaxExists(rest);
      var m :| m in rest && forall x :: x in rest ==> x <= m;
      var top := if y > m then y else m;
      forall x | x in s ensures x <= top {
        if x != y { assert x in rest; }
      }
      assert top in s;
    }
  }

  /** The largest id of a non-empty set of ids. */
  function MaxOf(s: set<int>): (m: int)
    requires s != {}
    ensures m in s && forall x :: x in s ==> x <= m
  {
    MaxExists(s);
    var m :| m in s && forall x :: x in s ==> x <= m;
    m
  }

  /** The ids of `s`, largest first. */
  function DescendingIds(s: set<int>): (r: seq<int>)
    ensures Descending(r)
    ensures forall x :: x in r <==> x in s
    ensures |r| == |s|
    decreases |s|
  {
    if s == {} then []
    else
      var m := MaxOf(s);
      var rest := DescendingIds(s - {m});
      assert forall k :: 0 <= k < |rest| ==> rest[k] in s - {m};
      [m] + rest
  }

  /** Python slicing `s[:limit]` for a non-negative limit, or no limit at all. */
  function Take<T>(s: seq<T>, limit: Option<nat>): (r: seq<T>)
    ensures limit.None? ==> r == s
    ensures limit.Some? ==> |r| == (if limit.value < |s| then limit.value else |s|)
    ensures r <= s
  {
    match limit
    case None => s
    case Some(n) => if n < |s| then s[..n] else s
  }

  /** A limited prefix of the ids in descending order keeps the newest ones:
      every id it leaves out is smaller than every id it keeps. */
  lemma TakeNewest(s: set<int>, limit: Option<nat>)
    ensures Descending(Take(DescendingIds(s), limit))
    ensures forall x :: x in Take(DescendingIds(s), limit) ==> x in s
    ensures forall x, y :: x in s && x !in Take(DescendingIds(s), limit) && y in Take(DescendingIds(s), limit) ==> y > x
  {
    var d := DescendingIds(s);
    var r := Take(d, limit);
    assert r == d[..|r|];
    forall x, y | x in s && x !in r && y in r ensures y > x {
      var j :| 0 <= j < |d| && d[j] == x;
      var i :| 0 <= i < |r| && r[i] == y;
      if j < |r| {
        assert false;
      }
    }
  }
}

=== FILE: store.dfy ===
/** The ORM as the handlers use it: a `Database` object whose row writes
    (`objects.create`, `row.delete()`, `objects.get_or_create`) keep the
    schema's constraints, and the read queries over a snapshot of it. */
module Store {
  import opened Rows
  import opened Models

  class Database {
    var db: Db

    ghost predicate Valid()
      reads this
    {
      Models.Valid(db)
    }

    constructor (initial: Db)
      requires Models.Valid(initial)
      ensures Valid() && db == initial
    {
      db := initial;
    }

    /** `Favorite.objects.create(user=..., recipe=...)`: the unique
        constraint rejects a second row for the same pair (IntegrityError). */
    method CreateFavorite(user: int, recipe: int) returns (ok: bool)
      requires Valid() && user in db.users && recipe in db.recipes
      modifies this
      ensures Valid()
      ensures ok <==> (user, recipe) !in old(db.favorites)
      ensures db == if ok then old(db).(favorites := old(db.favorites) + [(user, recipe)]) else old(db)
    {
      ok := (user, recipe) !in db.favorites;
      if ok {
        NoDupAppend(db.favorites, (user, recipe));
        db := db.(favorites := db.favorites + [(user, recipe)]);
      }
    }

    /** `fav_recipe.delete()` on a fetched Favorite row. */
    method DeleteFavorite(user: int, recipe: int)
      requires Valid() && (user, recipe) in db.favorites
      modifies this
      ensures Valid()
      ensures db == old(db).(favorites := Without(old(db.favorites), (user, recipe)))
    {
      WithoutNoDup(db.favorites, (user, recipe));
      db := db.(favorites := Without(db.favorites, (user, recipe)));
    }

    /** `Follow.objects.create(...)`: the `unique_follow` constraint rejects
        a second row for the same pair. */
    method CreateFollow(user: int, author: int) returns (ok: bool)
      requires Valid() && user in db.users && author in db.users
      modifies this
      ensures Valid()
      ensures ok <==> (user, author) !in old(db.follows)
      ensures db == if ok then old(db).(follows := old(db.follows) + [(user, author)]) else old(db)
    {
      ok := (user, author) !in db.follows;
      if ok {
        NoDupAppend(db.follows, (user, author));
        db := db.(follows := db.follows + [(user, author)]);
      }
    }

    /** `Follow.objects.get_or_create(...)`: returns whether a row was created. */
    method GetOrCreateFollow(user: int, author: int) returns (created: bool)
      requires Valid() && user in db.users && author in db.users
      modifies this
      ensures Valid()
      ensures created <==> (user, author) !in old(db.follows)
      ensures (user, author) in db.follows
      ensures db == if created then old(db).(follows := old(db.follows) + [(user, author)]) else old(db)
    {
      created := CreateFollow(user, author);
    }

    /** `subscription.delete()` on a fetched Follow row. */
    method DeleteFollow(user: int, author: int)
      requires Valid() && (user, author) in db.follows
      modifies this
      ensures Valid()
      ensures db == old(db).(follows := Without(old(db.follows), (user, author)))
    {
      WithoutNoDup(db.follows, (user, author));
      db := db.(follows := Without(db.follows, (user, author)));
    }
  }

  // ---------------------------------------------------------------------
  // Read queries

  /** A user's rows of a (user, target) table, in row order: the related
      managers `user.followers`, `user.favorites`, `user.shopping_carts`. */
  function RowsOf(rows: seq<Pair>, user: int): (r: seq<Pair>)
    ensures forall p :: p in r <==> p in rows && p.0 == user
  {
    Where(rows, (p: Pair) => p.0 == user)
  }

  /** The target side of each row (the author followed, the recipe kept). */
  function Targets(rows: seq<Pair>): (r: seq<int>)
    ensures |r| == |rows|
    ensures forall k :: 0 <= k < |rows| ==> r[k] == rows[k].1
  {
    if rows == [] then []
    else Targets(rows[..|rows| - 1]) + [rows[|rows| - 1].1]
  }

  /** The targets listed for a user are exactly the pairs stored for them. */
  lemma {:induction false} TargetsOfUser(follows: seq<Pair>, user: int, author: int)
    ensures author in Targets(RowsOf(follows, user)) <==> (user, author) in follows
  {
    var rows := RowsOf(follows, user);
    var names := Targets(rows);
    if (user, author) in follows {
      var k :| 0 <= k < |rows| && rows[k] == (user, author);
      assert names[k] == author;
    }
    if author in names {
      var k :| 0 <= k < |names| && names[k] == author;
      assert rows[k] in rows;
    }
  }

  /** Because rows are unique, one user's targets are distinct. */
  lemma {:induction false} TargetsDistinct(follows: seq<Pair>, user: int)
    requires NoDup(follows)
    ensures NoDup(Targets(RowsOf(follows, user)))
  {
    var rows := RowsOf(follows, user);
    WhereNoDup(follows, (p: Pair) => p.0 == user);
    var names := Targets(rows);
    forall i, j | 0 <= i < j < |names| ensures names[i] != names[j] {
      assert rows[i] in rows && rows[j] in rows;
      assert rows[i].0 == user && rows[j].0 == user;
      assert rows[i] != rows[j];
    }
  }

  /** `user.shopping_carts.all()`: the recipes of the user's cart rows, in row order. */
  function CartOf(db: Db, user: int): (r: seq<int>)
    ensures forall id :: id in r <==> (user, id) in db.shoppingCarts
  {
    var r := Targets(RowsOf(db.shoppingCarts, user));
    assert forall id :: id in r <==> (user, id) in db.shoppingCarts by {
      forall id ensures id in r <==> (user, id) in db.shoppingCarts {
        TargetsOfUser(db.shoppingCarts, user, id);
      }
    }
    r
  }

  /** `RecipeIngredient.objects.filter(recipe=recipe)`, in the table's order. */
  function LinesOf(db: Db, recipe: int): (r: seq<RecipeIngredient>)
    ensures forall l :: l in r <==> l in db.recipeIngredients && l.recipe == recipe
  {
    Where(db.recipeIngredients, (l: RecipeIngredient) => l.recipe == recipe)
  }
}

=== FILE: user_permissions.dfy ===
/** `IsOwnerOrAuthenticatedOrCreateOnly`: the permission class of the user
    endpoints. The object of the object-level check is a user, given by its
    primary key. */
module UserPermissions {
  import opened Http

  /** The methods that change a user record. */
  const WriteMethods: set<string> := {"PUT", "PATCH", "DELETE"}

  /** `has_permission`: anyone may POST (sign up); every other method needs
      a logged-in user. */
  function HasPermission(user: Requester, httpMethod: string): (allowed: bool)
    ensures httpMethod == "POST" ==> allowed
    ensures httpMethod != "POST" ==> (allowed <==> user.Authenticated?)
  {
    if httpMethod == "POST" then true
    else !user.Anonymous?
  }

  /** `has_object_permission`: only the user themself or an admin may change
      a user record; every other method is allowed. */
  function HasObjectPermission(user: Requester, httpMethod: string, obj: int): (allowed: bool)
    requires httpMethod !in WriteMethods || user.Authenticated?
    ensures httpMethod !in WriteMethods ==> allowed
    ensures httpMethod in WriteMethods ==> (allowed <==> user.id == obj || user.isAdmin)
  {
    if httpMethod in WriteMethods then (user.Authenticated? && user.id == obj) || user.isAdmin
    else true
  }

  /** An anonymous requester passes the view-level check for POST alone. */
  lemma AnonymousOnlyCreates(httpMethod: string)
    ensures HasPermission(Anonymous, httpMethod) <==> httpMethod == "POST"
  {
  }

  /** A request that passes both checks for a write method comes from the
      user being changed or from an admin. */
  lemma WritesNeedOwnerOrAdmin(user: Requester, httpMethod: string, obj: int)
    requires httpMethod in WriteMethods && HasPermission(user, httpMethod)
    ensures user.Authenticated?
    ensures HasObjectPermission(user, httpMethod, obj) <==> user.id == obj || user.isAdmin
  {
  }
}

=== FILE: user_views.dfy ===
/** The user-side follow handlers: the idempotent `subscribe` action and the
    list of followed users. The requesting user is authenticated and given
    by its primary key. */
module UserViews {
  import opened Wrappers
  import opened Rows
  import opened Http
  import opened Models
  import opened Store

  /** `subscribe`: 404 for an unknown author; 400 for oneself whatever the
      method; DELETE removes the row or answers 400 when there is none; GET
      makes sure the row exists and answers 201 whether or not it was new. */
  method Subscribe(store: Database, follower: int, author: int, verb: Verb) returns (reply: Reply)
    requires store.Valid() && follower in store.db.users
    modifies store
    ensures store.Valid()
    ensures author !in old(store.db.users) ==> reply == NotFound && store.db == old(store.db)
    ensures author in old(store.db.users) && follower == author ==>
      reply == Reply(StatusBadRequest, Some(SelfSubscribeText)) && store.db == old(store.db)
    ensures author in old(store.db.users) && follower != author && verb == Delete ==>
      if (follower, author) in old(store.db.follows) then
        reply == Reply(StatusNoContent, None) &&
        store.db == old(store.db).(follows := Without(old(store.db.follows), (follower, author)))
      else
        reply == Reply(StatusBadRequest, Some(NoSubscriptionText)) && store.db == old(store.db)
    ensures author in old(store.db.users) && follower != author && verb == Get ==>
      && reply == Reply(StatusCreated, None)
      && (follower, author) in store.db.follows
      && store.db == if (follower, author) in old(store.db.follows) then old(store.db)
                     else old(store.db).(follows := old(store.db.follows) + [(follower, author)])
  {
    if author !in store.db.users {
      return NotFound;
    }
    if follower == author {
      return Reply(StatusBadRequest, Some(SelfSubscribeText));
    }
    match verb
    case Delete =>
      if (follower, author) !in store.db.follows {
        return Reply(StatusBadRequest, Some(NoSubscriptionText));
      }
      store.DeleteFollow(follower, author);
      return Reply(StatusNoContent, None);
    case Get =>
      var _ := store.GetOrCreateFollow(follower, author);
      return Reply(StatusCreated, None);
  }

  /** A second GET `subscribe` answers as the first did and changes nothing. */
  method SubscribeTwice(store: Database, follower: int, author: int) returns (first: Reply, second: Reply)
    requires store.Valid() && follower in store.db.users
    modifies store
    ensures store.Valid()
    ensures first == second
    ensures author in old(store.db.users) && follower != author ==>
      (follower, author) in store.db.follows && |store.db.follows| <= |old(store.db.follows)| + 1
  {
    first := Subscribe(store, follower, author, Get);
    ghost var between := store.db;
    second := Subscribe(store, follower, author, Get);
    assert store.db == between;
  }

  /** The answer of `subscriptions`: 200 with no body when the user follows
      no one, otherwise the followed users. */
  datatype Followings = NoBody | Users(ids: seq<int>)

  /** `subscriptions`: one followed user per follow row of the requester, in
      row order, collected in a loop. */
  method Subscriptions(db: Db, user: int) returns (r: Followings)
    ensures r.NoBody? <==> forall p :: p in db.follows ==> p.0 != user
    ensures r.Users? ==> |r.ids| == |RowsOf(db.follows, user)|
    ensures r.Users? ==> forall k :: 0 <= k < |r.ids| ==> (user, r.ids[k]) == RowsOf(db.follows, user)[k]
    ensures r.Users? ==> forall a :: a in r.ids <==> (user, a) in db.follows
    ensures r.Users? && NoDup(db.follows) ==> NoDup(r.ids)
  {
    var subscriptions := RowsOf(db.follows, user);
    if subscriptions == [] {
      return NoBody;
    }
    var followings: seq<int> := [];
    var i := 0;
    while i < |subscriptions|
      invariant 0 <= i <= |subscriptions|
      invariant |followings| == i
      invariant forall k :: 0 <= k < i ==> followings[k] == subscriptions[k].1
    {
      followings := followings + [subscriptions[i].1];
      i := i + 1;
    }
    assert followings == Targets(subscriptions);
    forall a ensures a in followings <==> (user, a) in db.follows {
      TargetsOfUser(db.follows, user, a);
    }
    if NoDup(db.follows) {
      TargetsDistinct(db.follows, user);
    }
    return Users(followings);
  }
}

=== FILE: wrappers.dfy ===
/** The optional value used where the source returns `None` or leaves a query
    parameter out. */
module Wrappers {
  datatype Option<+T> = None | Some(value: T)
}
